=== FILE: README.md ===
# microtaskrr game session engine, in Dafny

microtaskrr is a desktop overlay. It shows a short micro-game while a long
command runs and hides it when the command is done. This project models the
JavaScript core of that overlay:

- **the session controller** (`src/js/app.js`, module `App`). It picks a game
  other than the previous one, starts it on a show event and stops it on a
  hide event. It records the game's result, asks the host to save the
  statistics, and hands the focus back to the previous application. Escape
  hides from anywhere; `s` outside a text field shows a game when none is
  active.
- **the statistics aggregator** (`src/js/stats.js`, module `Stats`). It holds
  one running aggregate per game: default values, a memoised `load` that
  merges the persisted entries, and `record`, which folds a finished session
  into its game's aggregate.
- **the six games** (`src/js/games/*.js`), one class each, with their fields
  and listeners modelled:
  - typing test (module `Typing`);
  - arithmetic drill (module `Arithmetic`);
  - grid snake (module `Snake`);
  - reflex timer (module `Reaction`);
  - tile memory (module `Memory`);
  - colour-word game (module `Stroop`).

Conventions used throughout:

- Each `Math.random()` outcome is a parameter of type `Common.Unit`, a real
  number in [0, 1). `Math.floor(u * n)` is computed exactly.
- A rejection loop (food placement in snake, the ink colour in the
  colour-word game) takes a finite stream of draws. It is specified by the
  first acceptable draw, and every earlier draw is proved rejected.
- Clock readings (`Date.now()`, `performance.now()`, frame times) are integer
  parameters.
- A `setTimeout` is a pending flag, or a list of pending callbacks, plus a
  method that fires it.
- An attached event listener is a `listening` flag (for snake, `running`).
- The four registered games are `App.GameId` values. `App.Name` gives each
  one's key in the `games` registry and in the statistics.
- The host (the Tauri back end) is reached through `App.HostCall` entries
  that the session appends: a save of a statistics snapshot, and the
  focus-previous-app request. The statistics read back from the host arrive
  as an already-parsed map, or `None` when the service failed or the text
  did not parse.

Where the code and its documented behaviour differ, the model follows the
code:

- `onShow` has no guard against a game that is already active; see Findings.
- `pickRandomGame` has no fallback for an empty choice list. With four
  registered games the list always holds three or four ids
  (`App.ChoicesNonEmpty`).
- Subtraction draws its first operand from [2, 50], not [1, 50].
- Snake ticks once at least 125 ms have passed (`>=`), not only once more
  than 125 ms have.
- A hide while no game is active is not a no-op: it still restores the idle
  screen and asks the host to focus the previous application.
- The math feedback timer is never cancelled by `stop()`. It only clears a
  text label.

## Model

| member | source | states |
|---|---|---|
| Common.Draw | src/js/app.js:31 | `Math.floor(u * n)` for u in [0, 1) is an index below n, and is the floor of u·n |
| Common.DrawHits | src/js/app.js:31 | every index below n is drawn by the draw k/n, so every choice is reachable |
| Common.RoundDiv | src/js/stats.js:46-48 | `Math.round(n / d)` is the integer r with d(2r-1) ≤ 2n < d(2r+1): the nearest integer, halves rounded up |
| Common.RoundDivBetween | src/js/stats.js:46-48 | a rounded quotient of a value between lo·d and hi·d stays between lo and hi |
| Common.RoundDivExact | src/js/games/typing.js:38-40 | an exact quotient is not changed by the rounding |
| Common.Round | src/js/games/typing.js:37 | `Math.round(x)` lies within one half of x |
| Common.AsciiLower | src/js/games/snake.js:69 | lower-casing keeps the length and maps each character |
| Common.TrimStart | src/js/games/math.js:83 | `parseInt` skips exactly the leading white space; the rest starts with a non-space |
| Common.TrimEnd | src/js/games/typing.js:117 | only trailing white space is removed, and the result does not end in white space |
| Common.Trim | src/js/games/typing.js:117-118 | the trimmed word is a slice of the input with only white space before and after it; it is empty exactly when the input is all white space, and otherwise neither starts nor ends with white space |
| Stats.RecordTyping | src/js/stats.js:43-49 | one more test; the best WPM is the larger of the old best and the new WPM; the average is the rounded mean in which the old average stands for the earlier tests |
| Stats.RecordMath | src/js/stats.js:50-54 | problems and right answers are added, the best streak is the larger one, and right answers never exceed problems |
| Stats.RecordSnake | src/js/stats.js:55-57 | one more game; the high score never decreases and is the old one or the new score |
| Stats.RecordReaction | src/js/stats.js:59-68 | a best time of 0 changes nothing; otherwise one more attempt, the best time is the minimum, and the average is the first time or the rounded running mean |
| Stats.RecordScoresHighScore | src/js/stats.js:55-57 | after any number of snake sessions the game count has grown by their number, and the high score is the maximum of the old high score and every score |
| Stats.RecordReactionsBest | src/js/stats.js:59-68 | after any number of reaction sessions the best time is at or below the old best and every non-zero session best |
| Stats.TypingAverageBetween | src/js/stats.js:46-48 | the new typing average stays within any range holding both the old average and the new WPM |
| Stats.Serialize | src/js/stats.js:30-36 | the saved snapshot holds exactly the four aggregate keys |
| Stats.SaveLoadRoundTrip | src/js/stats.js:14-36 | loading a saved snapshot into any aggregates gives back exactly the saved aggregates |
| Stats.MergeIgnoresForeignFields | src/js/stats.js:19-22 | for each of the four aggregates, an entry with none of that aggregate's fields leaves it unchanged |
| Stats.StatsManager.constructor | src/js/stats.js:4-12 | every aggregate starts at its defaults (reaction best and average null) and nothing is loaded |
| Stats.StatsManager.Load | src/js/stats.js:14-28 | the first call merges each key's truthy persisted entry into its aggregate, or keeps the defaults on failure; every later call changes nothing |
| Stats.StatsManager.Snapshot | src/js/stats.js:30-36 | what `save` hands to the host holds the four aggregates |
| Stats.StatsManager.Record | src/js/stats.js:38-70 | the result is folded into its own game's aggregate only; an unknown id changes nothing |
| Reaction.Min | src/js/games/reaction.js:105 | the best time is one of the samples and no sample is smaller |
| Reaction.MeanBetweenBounds | src/js/games/reaction.js:34-36 | the rounded mean of samples lies between any lower and upper bound of the samples |
| Reaction.MinAtMostMean | src/js/games/reaction.js:34-38 | with non-negative samples the rounded mean is non-negative and never below the best time |
| Reaction.TwoSamplesExample | src/js/games/reaction.js:31-42 | samples 200 ms and 300 ms report a best of 200 and a mean of 250 |
| Reaction.ReactionGame.constructor | src/js/games/reaction.js:2-15 | idle, no samples, no timer, no listener |
| Reaction.ReactionGame.Start | src/js/games/reaction.js:17-29 | idle with no samples and the listener attached; a pending timer is left as it was |
| Reaction.ReactionGame.Summary | src/js/games/reaction.js:34-41 | the result is the best time or 0, the rounded mean or 0, and the number of samples; the best is a sample no larger than the mean |
| Reaction.ReactionGame.Stop | src/js/games/reaction.js:31-42 | the listener is detached, the timer cleared, and the result is the summary of the samples |
| Reaction.ReactionGame.OnKeydown | src/js/games/reaction.js:44-49 | Space while listening takes the action of the current state (a new wait with the drawn delay, a too-early press, or one recorded sample with the best time updated); any other key, or no listener, changes nothing |
| Reaction.ReactionGame.OnAction | src/js/games/reaction.js:51-65 | idle, result and too-early start a wait with the delay 1500 + 3500u, in [1500, 5000); waiting becomes too early with no sample; ready records exactly one sample, the time since green, the best time becomes the minimum and the timer and ready time are kept; no key press enters ready |
| Reaction.ReactionGame.StartWaiting | src/js/games/reaction.js:67-76 | waiting, with the go-green timer pending after 1500 + 3500u ms |
| Reaction.ReactionGame.GoGreen | src/js/games/reaction.js:78-83 | a pending timer makes the game ready and stamps the time; a cleared timer does nothing |
| Reaction.ReactionGame.TooEarlyPress | src/js/games/reaction.js:85-93 | the timer is cancelled and no sample is taken |
| Reaction.ReactionGame.RecordTime | src/js/games/reaction.js:95-112 | exactly one latency sample is appended and the best time stays the minimum of all samples |
| Arithmetic.Rand | src/js/games/math.js:71-73 | `rand(min, max)` lies in [min, max] |
| Arithmetic.RandHits | src/js/games/math.js:71-73 | every value of [min, max] is produced by some draw |
| Arithmetic.Generate | src/js/games/math.js:39-69 | the operands lie in their ranges, the stored answer is what the shown problem evaluates to, subtraction is never negative and division is exact with a quotient in [1, 12] |
| Arithmetic.DivExact | src/js/games/math.js:60-63 | a dividend built as divisor times quotient divides back exactly to the quotient |
| Arithmetic.GenerateCovers | src/js/games/math.js:39-69 | every problem within the ranges is produced by some draws |
| Arithmetic.DigitPrefix | src/js/games/math.js:83 | `parseInt` reads the longest run of leading digits |
| Arithmetic.ParseInt | src/js/games/math.js:83-84 | the text is NaN exactly when no digit follows the white space and the sign |
| Arithmetic.ParseShowRoundTrip | src/js/games/math.js:83-88 | typing the decimal text of any integer submits exactly that integer |
| Arithmetic.LetterRejected | src/js/games/math.js:83-84 | text starting with a letter is rejected |
| Arithmetic.MathGame.constructor | src/js/games/math.js:2-15 | counters at 0, no problem, no listener |
| Arithmetic.MathGame.Start | src/js/games/math.js:17-28 | counters back at 0, a generated problem with its answer, and the listener attached |
| Arithmetic.MathGame.Stop | src/js/games/math.js:30-37 | the listener is detached and the result is right answers, answers and best streak, with right ≤ total |
| Arithmetic.MathGame.NextProblem | src/js/games/math.js:39-69 | the shown problem and its stored answer are replaced by a generated pair; the counters are untouched |
| Arithmetic.MathGame.OnKeydown | src/js/games/math.js:75-80 | Enter while listening submits: unparsable text changes nothing, a number counts one more answer, scores and streaks it, shows the next generated problem and keeps the listener; any other key, or no listener, changes nothing |
| Arithmetic.MathGame.Submit | src/js/games/math.js:82-109 | unparsable text changes nothing; otherwise one more answer; a match adds a right answer and extends the streak and the best streak, a miss resets the streak; then the next generated problem and its answer |
| Arithmetic.MathGame.Score | src/js/games/math.js:86-98 | one more answer; a right one extends the streak and raises the best streak to it, a wrong one resets the streak; right answers never exceed answers and the streak never exceeds the best |
| Arithmetic.ThreeRightOneWrong | src/js/games/math.js:17-109 | a fresh session with three right answers and a wrong one reports 3 of 4 and a best streak of 3 |
| Arithmetic.AnswerRight | src/js/games/math.js:88-91 | typing the stored answer scores it and extends the streak |
| Arithmetic.AnswerWrong | src/js/games/math.js:94-95 | typing another number counts an answer, scores nothing and resets the streak |
| Snake.InitialBody | src/js/games/snake.js:39-46 | the fresh body is three distinct cells on the board |
| Snake.KeyDirection | src/js/games/snake.js:68-80 | exactly the eight mapped keys give a direction, and it is a unit step |
| Snake.DrawCell | src/js/games/snake.js:60-63 | a food attempt always lands on the board |
| Snake.FirstFree | src/js/games/snake.js:56-66 | the attempt the loop stops at is the first one off the body; every earlier attempt hit the body |
| Snake.FullBoardHasNoFreeDraw | src/js/games/snake.js:56-66 | on a full board no attempt is free, so the rejection loop cannot stop |
| Snake.Occupies | src/js/games/snake.js:113-119 | the self-collision scan finds the next head exactly when it is a body cell |
| Snake.MoveKeepsBodyOk | src/js/games/snake.js:99-132 | moving onto a free cell of the board, growing or not, keeps the body on the board without repeated cells |
| Snake.SnakeGame.constructor | src/js/games/snake.js:8-20 | high score 0, not running, no restart pending |
| Snake.SnakeGame.Start | src/js/games/snake.js:22-29 | a fresh board heading right with food on a free cell, running from `now`; the high score is kept |
| Snake.SnakeGame.Stop | src/js/games/snake.js:31-37 | stops the loop and the restart timer, leaving the board, food, heading and tick time as they were; the result is the current score, not the high score |
| Snake.SnakeGame.Reset | src/js/games/snake.js:39-54 | three cells heading right, score 0, alive, food at the first free attempt |
| Snake.SnakeGame.PlaceFood | src/js/games/snake.js:56-66 | the food is the first drawn cell off the body |
| Snake.SnakeGame.OnKeydown | src/js/games/snake.js:68-85 | a mapped key that does not reverse the heading is buffered; nothing else changes the buffered direction |
| Snake.SnakeGame.Loop | src/js/games/snake.js:87-97 | a logic tick happens exactly when running and at least 125 ms have passed: the tick time becomes `now`, a live snake takes the full step of a tick (turn, death or advance, growth and new food), and a dead one stays as it was, high score and restart timer included; otherwise nothing changes |
| Snake.SnakeGame.Tick | src/js/games/snake.js:99-132 | a dead snake stays put; the buffered direction is applied; leaving the board or hitting any body cell kills without moving; eating grows by one, scores a point and places food on a free cell; any other move keeps the length |
| Snake.SnakeGame.Advance | src/js/games/snake.js:121-129 | onto the food: the head is added, the score rises by one and new food lands on the first free attempt; elsewhere: the head is added and the tail dropped, score and food kept; the body stays on the board without repeats |
| Snake.SnakeGame.Die | src/js/games/snake.js:134-145 | dead, the high score absorbs the score, the restart timer is pending |
| Snake.SnakeGame.RestartFire | src/js/games/snake.js:140-144 | a pending restart is consumed; while the game is running it resets the board (three cells heading right, score 0, alive, food at the first free attempt), otherwise the board stays as it was; a cleared restart does nothing |
| Typing.Shuffle | src/js/games/typing.js:63-70 | Fisher-Yates returns the same words, each as often, in some order |
| Typing.Sentence | src/js/games/typing.js:45-46 | the sentence has the drawn length, or the whole corpus when that is shorter, and uses no corpus word more often than the corpus holds it |
| Typing.SentenceLength | src/js/games/typing.js:45 | a sentence has 5 to 12 words |
| Typing.SentenceLengthCovers | src/js/games/typing.js:45 | every length from 5 to 12 is drawn by some draw |
| Typing.CountTrue | src/js/games/typing.js:123-131 | right words never outnumber submitted ones |
| Typing.AllRightCredit | src/js/games/typing.js:125-127 | with every word right, the credited characters are the words' characters plus one space each |
| Typing.AppendMark | src/js/games/typing.js:123-131 | marking one more word adds its credit and nothing else |
| Typing.CalcWpm | src/js/games/typing.js:150-157 | the speed is 0 exactly without a start, without credit or under 0.01 minutes; otherwise speed times minutes is credited characters over 5 |
| Typing.MinMinutesIs600Ms | src/js/games/typing.js:154-155 | the 0.01-minute threshold is 600 ms |
| Typing.Accuracy | src/js/games/typing.js:38-40 | 100 with no attempt; otherwise the share of right words, rounded to the nearest percent, at most 100 |
| Typing.AccuracyExtremes | src/js/games/typing.js:38-40 | all words right gives 100 and none right gives 0 |
| Typing.TypingGame.constructor | src/js/games/typing.js:3-20 | no sentence, not done, no listener |
| Typing.TypingGame.Start | src/js/games/typing.js:22-30 | a fresh sentence of the drawn length (or the whole corpus) drawn from the corpus, every counter and result back at 0, no clock, and the listeners attached |
| Typing.TypingGame.Stop | src/js/games/typing.js:32-42 | the listeners are detached; the result is the rounded speed and the accuracy |
| Typing.TypingGame.GenerateSentence | src/js/games/typing.js:44-61 | the sentence is a fresh one: the drawn length (or the whole corpus), using no corpus word more often than the corpus holds it, with every counter and result back at 0 and the clock cleared |
| Typing.TypingGame.OnKeydown | src/js/games/typing.js:99-114 | the listener is kept; with no listener nothing changes; on an unfinished sentence, Space or Enter in the input with non-blank text has the full effect of one submission and keeps the sentence, the key that submits the last word ends it without also starting the next one, and every other key changes nothing; on a finished sentence the key has the document handler's effect |
| Typing.TypingGame.OnInputKeydown | src/js/games/typing.js:100-105 | Space or Enter with non-blank text submits one word, with the full tally of a submission (attempt, position, verdict, right words and characters, clock, end of sentence); anything else changes nothing |
| Typing.TypingGame.OnDocKeydown | src/js/games/typing.js:108-114 | Space or Enter on a finished sentence, outside 100 ms of finishing, starts a fresh sentence: the drawn length (or the whole corpus) from the corpus, every counter and result back at 0 and the clock cleared; otherwise nothing changes |
| Typing.TypingGame.SubmitWord | src/js/games/typing.js:116-148 | blank text changes nothing; otherwise the trimmed text is marked against the expected word (one more attempt, the verdict recorded, a right word credits one word and its length plus one characters), the clock starts on the first submission, and the last word ends the sentence and stops the clock |
| Typing.TypingGame.Mark | src/js/games/typing.js:120-141 | one more attempt and position; a right word credits its length plus one; done exactly at the end of the sentence |
| Typing.TypingGame.Tally | src/js/games/typing.js:122-133 | one more attempt and position with its result recorded; a right word adds one right word and its length plus one credited characters; the counters keep agreeing with the recorded results |
| Memory.TileOfCovers | src/js/games/memory.js:58 | every tile can be appended |
| Memory.KeyTile | src/js/games/memory.js:99-106 | exactly the four arrow keys name a tile |
| Memory.LightTimers | src/js/games/memory.js:68-85 | tile i lights at 300 + 600i ms and goes dark 400 ms later |
| Memory.ShowTimersShape | src/js/games/memory.js:63-94 | showing schedules one state-changing callback, the switch to input, due after every tile has lit |
| Memory.MemoryGame.constructor | src/js/games/memory.js:2-21 | level 0, idle, no listener |
| Memory.MemoryGame.Start | src/js/games/memory.js:23-33 | level 1 with a one-tile sequence being shown, and the listener attached |
| Memory.MemoryGame.Stop | src/js/games/memory.js:35-40 | every pending callback is cleared and the result is the level and the best level |
| Memory.MemoryGame.ClearTimeouts | src/js/games/memory.js:42-45 | no callback stays pending |
| Memory.MemoryGame.NextLevel | src/js/games/memory.js:53-61 | one more level and one more random tile, input from the start, and the sequence shown |
| Memory.MemoryGame.ShowSequence | src/js/games/memory.js:63-94 | the lights of every tile and then the switch to input are scheduled |
| Memory.MemoryGame.OnKeydown | src/js/games/memory.js:96-140 | while input is expected, the right arrow advances and completes the level at the end; a wrong one ends the run and schedules the restart; other keys and states are ignored |
| Memory.MemoryGame.AcceptTile | src/js/games/memory.js:109-122 | the right arrow advances the input by one and schedules its 200 ms flash; at the end of the sequence input stops and the next level is scheduled 800 ms later |
| Memory.MemoryGame.Fail | src/js/games/memory.js:123-138 | a wrong arrow ends the run and schedules the restart 1500 ms later |
| Memory.MemoryGame.Fire | src/js/games/memory.js:72-137 | a fired callback is no longer pending; a light or flash callback changes nothing else; the switch to input enters input at position 0 and leaves the rest pending as it was; the next-level callback adds a tile and appends the new show schedule; the restart starts over from a one-tile sequence, appends its show schedule and keeps the best level |
| Memory.MemoryGame.RestartRun | src/js/games/memory.js:132-137 | the restart starts over at level 1 with one new tile being shown and keeps the best level |
| Stroop.ColorOfCovers | src/js/games/stroop.js:50 | every colour can be the word |
| Stroop.KeyColor | src/js/games/stroop.js:64-66 | exactly r, b, g and y name a colour |
| Stroop.FirstOther | src/js/games/stroop.js:52-54 | the ink the loop stops at is the first draw of another colour; every earlier draw had the word's colour |
| Stroop.StroopGame.constructor | src/js/games/stroop.js:2-22 | counters at 0, no colour, no listener, no timer |
| Stroop.StroopGame.Start | src/js/games/stroop.js:24-35 | counters back at 0, answers accepted, and a word shown in an ink of another colour |
| Stroop.StroopGame.Stop | src/js/games/stroop.js:37-45 | the listener is detached and the timer cleared, with the counters, streaks and colours kept; the result is right answers, answers and the best streak |
| Stroop.StroopGame.NextRound | src/js/games/stroop.js:47-59 | the new word's ink always differs from the colour it names |
| Stroop.StroopGame.OnKeydown | src/js/games/stroop.js:61-91 | an answer key outside feedback counts an answer, right exactly when it names the ink, keeps the word, the ink and the listener, and starts the feedback timer; anything else is ignored |
| Stroop.StroopGame.FeedbackFire | src/js/games/stroop.js:86-90 | a pending feedback timer shows the next word, in the ink of the first draw of another colour; a cleared one does nothing |
| App.Choices | src/js/app.js:30 | the choices are exactly the registered ids other than the previous game |
| App.Name | src/js/app.js:12-17 | each registered game's key is one of the keys the statistics keep |
| App.ChoicesNonEmpty | src/js/app.js:29-32 | whatever the previous game, at least three choices remain |
| App.WithoutDropsOne | src/js/app.js:30 | filtering ids without repeats drops at most one of them |
| App.NoPreviousKeepsAll | src/js/app.js:30 | with no previous game every id is a choice |
| App.PickRandomGame | src/js/app.js:29-32 | the pick is a registered id other than the previous game |
| App.PickCovers | src/js/app.js:29-32 | every registered id other than the previous game can be picked |
| App.Session.constructor | src/js/app.js:12-21 | no active or previous game, the idle screen, nothing loaded |
| App.Session.StopResult | src/js/app.js:70 | the result each game's `stop()` returns has the shape `record` reads for that game |
| App.Session.OnShow | src/js/app.js:57-66 | the statistics are loaded: a first load merges each persisted entry into its aggregate (or keeps the defaults when the host failed) and a later one keeps them; a game other than the previous one becomes active and last and is shown; that game is in the state its `start()` leaves (listening, counters at 0, a fresh problem, sentence or board) and no other game's state changes |
| App.Session.Select | src/js/app.js:61-64 | the picked game becomes active, last and shown |
| App.Session.StartGame | src/js/app.js:65 | the chosen game is in the state its `start()` leaves, and the other games' states are unchanged |
| App.Session.OnHide | src/js/app.js:68-80 | an active game is stopped, its result folded into its own aggregate only, a snapshot saved, and no game is active; the idle screen returns and focus is handed back in every case |
| App.Session.StopGame | src/js/app.js:70 | the active game stops and returns the result its `stop()` computes from its state before the call; the other games' states are unchanged |
| App.Session.OnKeydown | src/js/app.js:87-96 | Escape has exactly the effect of a hide; `s` outside a text field with no active game has exactly the effect of a show, statistics load included, and with an active game changes nothing; other keys change nothing |
| App.Session.OnShowGuarded | src/js/app.js:57-66 | a show while a game is active changes nothing; from idle it has the effect of a show; either way at most the active game is running |
| App.Session.ShownKeepsExclusive | src/js/app.js:57-66 | starting one game from an idle session in which no game runs, with the others untouched, leaves that game the only one running |
| App.Session.OnHideAll | src/js/app.js:68-80 | after a hide no game is running |
| App.DoubleShowOrphansFirstGame | src/js/app.js:57-66 | two shows with no hide between leave the first game running after the hide, untracked |

## Left out

- Screen output (DOM text, CSS classes, the snake canvas, the memory tile
  highlights, feedback labels) is not modelled. Only the state that the
  output reflects is.
- The word list (`src/data/words.js`) is not part of this model. The typing
  game takes its corpus as a constructor parameter and requires it to be
  non-empty.
- `StatsManager.getSummary` only formats text for display and is left out.
- The typing game's 500 ms `setInterval` that refreshes the on-screen speed
  is left out. It changes no game state.
- The math feedback `setTimeout` is left out. It only clears a label.
- The Tauri back end (`src-tauri/src/lib.rs`) is not modelled, beyond the
  fact that it emits a show event for every `show` argument while the
  machine is awake.
- Typing.CalcWpm, Common.Round: IEEE double arithmetic is modelled with
  exact reals and exact rounding, because floating-point error is outside
  this model.
- Stats.RecordTyping, Stats.RecordReaction: `Math.round` of a double
  quotient is modelled as exact rounding of the rational quotient.
- Reaction.ReactionGame.RecordTime: `performance.now()` is an integer
  clock, so the latency is a whole number of milliseconds before rounding.
  It is required to be at or after the ready time.
- Stats.StatsManager.Load: the persisted JSON is already parsed into a map.
  An entry is falsy or an object. `Object.assign` copying a field that is
  not a number, or copying foreign fields, is not modelled. A counter is
  replaced only by a number, and foreign fields are dropped.
- Stats.StatsManager.Load, App.Session.OnHide: the `await` on the host
  calls is not interleaved with other events. Load and save complete
  within the handler that calls them, and a save is recorded as a request
  to the host.
- Common.AsciiLower: `toLowerCase` is restricted to the ASCII letters.
- Memory.MemoryGame.Start requires the listener to be detached. The
  source's `start()` does not clear the callbacks an earlier run left
  pending.
- Memory.MemoryGame.Fire removes a fired callback from the pending list.
  The source keeps fired handles in `timeouts` until `clearTimeouts`,
  where clearing them is harmless.
- Pending callbacks may fire in any order. Their delays are recorded, but
  firing by due time is not enforced.
- Typing.TypingGame.SubmitWord: a right word credits `|word| + 1`
  characters, counting Unicode scalar values. `expected.length` in
  src/js/games/typing.js:127 counts UTF-16 code units, so a word outside
  the Basic Multilingual Plane is credited less here.
- Reaction.ReactionGame.Start keeps one go-green timer flag. A `start()`
  while a go-green timer is pending, followed by Space, overwrites the
  `this.timeout` handle (src/js/games/reaction.js:75): two go-green timers
  are then pending and `stop()` clears only the second. The model keeps a
  single pending timer.
- Snake.SnakeGame.Start keeps one restart flag. A second `start()` that
  overwrites a still-pending `restartTimer` handle is not modelled.
- Snake.SnakeGame.Loop models one frame callback. `requestAnimationFrame`
  scheduling and drawing are left out.
- Rejection loops: Snake.SnakeGame.PlaceFood and
  Stroop.StroopGame.NextRound are given finite draw streams that contain
  an acceptable draw. On a full board no stream does
  (Snake.FullBoardHasNoFreeDraw), and the source's loop would never stop.
- App.Session.OnKeydown covers the document handler of `app.js`. Each
  game's own keydown handler is a separate method on that game. One key
  event reaching several handlers in DOM order is modelled only within
  the typing game.
- Typing.TypingGame.OnDocKeydown: a `doneAt` of 0 (`Date.now()` returning
  0) is falsy in JavaScript and skips the debounce. The model keeps this,
  and the finishing-key guarantee in Typing.TypingGame.OnKeydown assumes
  `now` is not 0.
- The memory and colour-word games are not in the `app.js` registry, so
  the session controller never starts them. They are modelled on their
  own.

## Findings

| source | as written | input that shows it | evidently intended | confidence | as-written member | corrected member |
|---|---|---|---|---|---|---|
| src/js/app.js:57-66 | `onShow` starts a newly picked game even while another game is active. The "microtaskrr-show" listener (src/js/app.js:83) calls it on every show event, and src-tauri/src/lib.rs:62-74 emits one for every `show` argument while the machine is awake (lines 63-65 return without emitting while it sleeps). | Two `show` arguments with no `hide` between them. The second pick differs from the first game, which keeps its listeners attached. The hide that follows stops only the second game, so the first game's result is never recorded. | A show while a game is active does nothing. At most one game is running, and the active one is stopped on hide. | medium, not executed | App.DoubleShowOrphansFirstGame | App.Session.OnShowGuarded |

=== FILE: app.dfy ===
/**
 * The session controller: the registry of the four games that are played,
 * the random pick that never repeats the previous game, and the show and
 * hide handlers that start a game, and stop and record it.
 */
module App {
  import opened Common
  import Stats
  import Typing
  import Arithmetic
  import Snake
  import Reaction

  /** The four registered games; `Name` gives each one's key in the registry. */
  datatype GameId = TypingId | MathId | SnakeId | ReactionId

  /** The registered games, in registration order. */
  const GameIds: seq<GameId> := [TypingId, MathId, SnakeId, ReactionId]

  /** The registry key of a game, which is also its key in the statistics. */
  function Name(id: GameId): (key: string)
    ensures key in Stats.StatKeys
  {
    match id
    case TypingId => "typing"
    case MathId => "math"
    case SnakeId => "snake"
    case ReactionId => "reaction"
  }

  /** The games other than the previous one, in registration order. */
  function Choices(last: Option<GameId>): (cs: seq<GameId>)
    ensures forall i :: 0 <= i < |cs| ==> cs[i] in GameIds && Some(cs[i]) != last
    ensures forall id :: id in GameIds && Some(id) != last ==> id in cs
  {
    Without(GameIds, last)
  }

  function Without(ids: seq<GameId>, last: Option<GameId>): (cs: seq<GameId>)
    ensures forall i :: 0 <= i < |cs| ==> cs[i] in ids && Some(cs[i]) != last
    ensures forall id :: id in ids && Some(id) != last ==> id in cs
    ensures |cs| <= |ids|
  {
    if ids == [] then []
    else (if Some(ids[0]) != last then [ids[0]] else []) + Without(ids[1..], last)
  }

  /**
   * The ids are distinct, so at most one is dropped: whatever the previous
   * game was, at least three remain and the pick is always defined.
   */
  lemma ChoicesNonEmpty(last: Option<GameId>)
    ensures |Choices(last)| >= 3
  {
    if last.Some? {
      WithoutDropsOne(GameIds, last.value);
    } else {
      WithoutKeepsAll(GameIds, last);
    }
  }

  lemma {:induction false} WithoutKeepsAll(ids: seq<GameId>, last: Option<GameId>)
    requires forall i :: 0 <= i < |ids| ==> Some(ids[i]) != last
    ensures Without(ids, last) == ids
  {
    if ids != [] {
      WithoutKeepsAll(ids[1..], last);
    }
  }

  /** Ids with no repeat lose at most the previous game. */
  lemma {:induction false} WithoutDropsOne(ids: seq<GameId>, last: GameId)
    requires forall i, j :: 0 <= i < j < |ids| ==> ids[i] != ids[j]
    ensures |Without(ids, Some(last))| >= |ids| - 1
  {
    if ids != [] {
      var rest := ids[1..];
      if ids[0] == last {
        WithoutKeepsAll(rest, Some(last));
      } else {
        WithoutDropsOne(rest, last);
      }
    }
  }

  /** With no previous game nothing is dropped. */
  lemma NoPreviousKeepsAll()
    ensures Choices(None) == GameIds
  {
    WithoutKeepsAll(GameIds, None);
  }

  /** `pickRandomGame`: an index drawn into the remaining ids. */
  function PickRandomGame(last: Option<GameId>, u: Unit): (id: GameId)
    requires Choices(last) != []
    ensures id in GameIds && Some(id) != last
  {
    var cs := Choices(last);
    cs[Draw(u, |cs|)]
  }

  /** Every game other than the previous one can be picked. */
  lemma PickCovers(last: Option<GameId>, id: GameId)
    requires id in GameIds && Some(id) != last
    ensures exists u: Unit :: |Choices(last)| > 0 && PickRandomGame(last, u) == id
  {
    var cs := Choices(last);
    var k :| 0 <= k < |cs| && cs[k] == id;
    DrawHits(k, |cs|);
    var u: Unit := k as real / |cs| as real;
    assert PickRandomGame(last, u) == id;
  }

  /** What the window shows. */
  datatype Screen = IdleScreen | GameScreen(gameId: GameId)

  /** Requests to the host application, in the order they are made. */
  datatype HostCall =
    | SaveStats(snapshot: map<string, Stats.Entry>)
    | FocusPreviousApp

  /** The random outcomes a show may consume: the pick and the chosen game's `start()`. */
  datatype Draws = Draws(
    pick: Unit,
    typingLength: Unit,
    typingShuffle: seq<Unit>,
    mathOperands: (Unit, Unit, Unit),
    snakeFood: seq<(Unit, Unit)>)

  class Session {
    const typing: Typing.TypingGame
    const math: Arithmetic.MathGame
    const snake: Snake.SnakeGame
    const reaction: Reaction.ReactionGame
    const stats: Stats.StatsManager
    var activeGameId: Option<GameId>
    var lastGameId: Option<GameId>
    var screen: Screen
    var hostCalls: seq<HostCall>

    /** Every game keeps its own invariant; the active game, when there is one, was the last one picked. */
    ghost predicate Valid()
      reads this, typing, math, snake, reaction
    {
      && GamesValid()
      && (activeGameId.Some? ==> activeGameId == lastGameId)
    }

    /** Each of the four games keeps its own invariant. */
    ghost predicate GamesValid()
      reads typing, math, snake, reaction
    {
      typing.Valid() && math.Valid() && snake.Valid() && reaction.Valid()
    }

    /** The game with this id has its listeners attached (for snake: its loop is running). */
    predicate Running(id: GameId)
      reads typing, math, snake, reaction
    {
      match id
      case TypingId => typing.listening
      case MathId => math.listening
      case SnakeId => snake.running
      case ReactionId => reaction.listening
    }

    /** The only game that may be running is the active one. */
    ghost predicate Exclusive()
      reads this, typing, math, snake, reaction
    {
      forall id :: Running(id) ==> activeGameId == Some(id)
    }

    /** The random outcomes suffice for whichever game's `start()` they feed. */
    predicate Enough(d: Draws)
      reads this
    {
      && |d.typingShuffle| >= |typing.corpus| - 1
      && Snake.HasFreeDraw(Snake.InitialBody(), d.snakeFood)
    }

    /** Every game other than `id` is exactly as it was. */
    twostate predicate OthersUnchanged(id: GameId)
      reads typing, math, snake, reaction
    {
      && (id != TypingId ==> unchanged(typing))
      && (id != MathId ==> unchanged(math))
      && (id != SnakeId ==> unchanged(snake))
      && (id != ReactionId ==> unchanged(reaction))
    }

    /** The game `id` has been through its `start()` with these random outcomes and clock. */
    ghost predicate Started(id: GameId, d: Draws, now: int)
      reads typing, math, snake, reaction
    {
      match id
      case TypingId =>
        var len := Typing.SentenceLength(d.typingLength);
        && typing.listening && !typing.done
        && typing.currentIndex == 0 && typing.totalAttempted == 0
        && typing.correctWords == 0 && typing.correctChars == 0
        && |typing.words| == (if |typing.corpus| < len then |typing.corpus| else len)
        && multiset(typing.words) <= multiset(typing.corpus)
      case MathId =>
        var g := Arithmetic.Generate(d.mathOperands.0, d.mathOperands.1, d.mathOperands.2);
        && math.listening
        && math.total == 0 && math.correct == 0 && math.streak == 0 && math.bestStreak == 0
        && math.problem == Some(g.0) && math.answer == g.1
      case SnakeId =>
        && snake.running && snake.lastTick == now && !snake.dead
        && snake.snake == Snake.InitialBody() && snake.score == 0 && snake.dir == Snake.Right
        && Snake.HasFreeDraw(Snake.InitialBody(), d.snakeFood)
        && snake.food == Some(Snake.DrawCell(d.snakeFood[Snake.FirstFree(Snake.InitialBody(), d.snakeFood)]))
      case ReactionId =>
        && reaction.listening && reaction.state == Reaction.Idle
        && reaction.times == [] && reaction.bestMs == None
    }

    /**
     * What `onShow` leaves behind: the statistics loaded from what the host
     * returned (or kept, when already loaded), a game other than
     * the previous one active, last, shown and started, and every other
     * game as it was.
     */
    twostate predicate Shown(fetched: Option<map<string, Stats.Entry>>, d: Draws, now: int)
      reads this, typing, math, snake, reaction, stats
    {
      && Choices(old(lastGameId)) != []
      && var id := PickRandomGame(old(lastGameId), d.pick);
      && stats.Loaded(fetched)
      && activeGameId == Some(id) && lastGameId == Some(id) && screen == GameScreen(id)
      && Started(id, d, now) && OthersUnchanged(id) && snake.highScore == old(snake.highScore)
      && hostCalls == old(hostCalls)
    }

    /**
     * What `onHide` leaves behind: an active game stopped, its result folded
     * into its own aggregate only and a snapshot saved; in every case no
     * active game, the idle screen and the focus handed back.
     */
    twostate predicate Hidden(now: int)
      requires old(Valid())
      reads this, typing, math, snake, reaction, stats
    {
      && activeGameId == None && lastGameId == old(lastGameId) && screen == IdleScreen
      && (old(activeGameId).None? ==>
            && unchanged(typing, math, snake, reaction, stats)
            && hostCalls == old(hostCalls) + [FocusPreviousApp])
      && (old(activeGameId).Some? ==>
            var id := old(activeGameId.value);
            var r := old(StopResult(id, now));
            && !Running(id) && OthersUnchanged(id)
            && (forall other :: other != id ==> Running(other) == old(Running(other)))
            && stats.typing == (if id == TypingId then Stats.RecordTyping(old(stats.typing), r.wpm) else old(stats.typing))
            && stats.math == (if id == MathId then Stats.RecordMath(old(stats.math), r.correct, r.total, r.streak) else old(stats.math))
            && stats.snake == (if id == SnakeId then Stats.RecordSnake(old(stats.snake), r.score) else old(stats.snake))
            && stats.reaction == (if id == ReactionId then Stats.RecordReaction(old(stats.reaction), r.ms) else old(stats.reaction))
            && hostCalls == old(hostCalls) + [SaveStats(stats.Snapshot()), FocusPreviousApp])
    }

    constructor (corpus: seq<string>)
      requires corpus != []
      ensures Valid() && Exclusive()
      ensures activeGameId == None && lastGameId == None && screen == IdleScreen && hostCalls == []
      ensures typing.corpus == corpus && !stats.loaded
    {
      typing := new Typing.TypingGame(corpus);
      math := new Arithmetic.MathGame();
      snake := new Snake.SnakeGame();
      reaction := new Reaction.ReactionGame();
      stats := new Stats.StatsManager();
      activeGameId, lastGameId := None, None;
      screen := IdleScreen;
      hostCalls := [];
    }

    /** What the game's `stop()` returns at time `now`. */
    function StopResult(id: GameId, now: int): (r: SessionResult)
      reads this, typing, math, snake, reaction
      requires Valid()
      ensures Stats.Fits(Name(id), r)
    {
      match id
      case TypingId =>
        TypingResult(
          Round(Typing.CalcWpm(typing.startTime, typing.endTime, typing.correctChars, now)) as nat,
          Typing.Accuracy(typing.correctWords, typing.totalAttempted))
      case MathId => MathResult(math.correct, math.total, math.bestStreak)
      case SnakeId => SnakeResult(snake.score)
      case ReactionId => reaction.Summary()
    }

    /**
     * `onShow`, as written: the statistics are loaded (once), a game other
     * than the previous one is picked, becomes both the active and the last
     * game, is shown and is started. Nothing checks for a game that is
     * already active.
     */
    method OnShow(fetched: Option<map<string, Stats.Entry>>, d: Draws, now: int)
      requires Valid() && Enough(d)
      modifies this, typing, math, snake, reaction, stats
      ensures Valid() && Shown(fetched, d, now)
    {
      stats.Load(fetched);
      ChoicesNonEmpty(lastGameId);
      var gameId := PickRandomGame(lastGameId, d.pick);
      Select(gameId);
      StartGame(gameId, d, now);
    }

    /** The picked game becomes the active and the last game, and is shown. */
    method Select(gameId: GameId)
      modifies this`activeGameId, this`lastGameId, this`screen
      ensures activeGameId == Some(gameId) && lastGameId == Some(gameId) && screen == GameScreen(gameId)
    {
      activeGameId := Some(gameId);
      lastGameId := Some(gameId);
      screen := GameScreen(gameId);
    }

    /** `games[gameId].instance.start()`. */
    method StartGame(gameId: GameId, d: Draws, now: int)
      requires GamesValid() && Enough(d)
      modifies typing, math, snake, reaction
      ensures GamesValid()
      ensures Started(gameId, d, now) && OthersUnchanged(gameId) && snake.highScore == old(snake.highScore)
      ensures Running(gameId)
      ensures forall other :: other != gameId ==> Running(other) == old(Running(other))
    {
      match gameId
      case TypingId => typing.Start(d.typingLength, d.typingShuffle);
      case MathId => math.Start(d.mathOperands.0, d.mathOperands.1, d.mathOperands.2);
      case SnakeId => snake.Start(d.snakeFood, now);
      case ReactionId => reaction.Start();
    }

    /**
     * `onHide`: an active game is stopped, its result recorded and the
     * statistics saved, and no game is active any more. Whether or not a
     * game was active, the idle screen comes back and the previous
     * application gets the focus again.
     */
    method OnHide(now: int)
      requires Valid()
      modifies this, typing, math, snake, reaction, stats
      ensures Valid() && Hidden(now)
    {
      if activeGameId.Some? {
        var id := activeGameId.value;
        var result := StopGame(id, now);
        stats.Record(Name(id), result);
        hostCalls := hostCalls + [SaveStats(stats.Snapshot())];
        activeGameId := None;
      }
      screen := IdleScreen;
      hostCalls := hostCalls + [FocusPreviousApp];
    }

    /** `games[gameId].instance.stop()`. */
    method StopGame(gameId: GameId, now: int) returns (r: SessionResult)
      requires Valid()
      modifies typing, math, snake, reaction
      ensures GamesValid()
      ensures r == old(StopResult(gameId, now))
      ensures !Running(gameId) && OthersUnchanged(gameId)
      ensures forall other :: other != gameId ==> Running(other) == old(Running(other))
    {
      match gameId
      case TypingId => r := typing.Stop(now);
      case MathId => r := math.Stop();
      case SnakeId => r := snake.Stop();
      case ReactionId => r := reaction.Stop();
    }

    /**
     * The document key handler: Escape hides from anywhere; outside a text
     * field, `s` shows a game only when none is active.
     */
    method OnKeydown(key: string, targetIsInput: bool,
                     fetched: Option<map<string, Stats.Entry>>, d: Draws, now: int)
      requires Valid() && Enough(d)
      modifies this, typing, math, snake, reaction, stats
      ensures Valid()
      ensures key == "Escape" ==> Hidden(now)
      ensures key != "Escape" && (targetIsInput || key != "s" || old(activeGameId).Some?) ==>
        unchanged(this, typing, math, snake, reaction, stats)
      ensures key == "s" && !targetIsInput && old(activeGameId).None? ==> Shown(fetched, d, now)
    {
      if key == "Escape" {
        OnHide(now);
        return;
      }
      if targetIsInput {
        return;
      }
      if key == "s" && activeGameId.None? {
        OnShow(fetched, d, now);
      }
    }

    /**
     * A show that ignores the request while a game is active: with it, the
     * active game stays the only one that can be running.
     */
    method OnShowGuarded(fetched: Option<map<string, Stats.Entry>>, d: Draws, now: int)
      requires Valid() && Exclusive() && Enough(d)
      modifies this, typing, math, snake, reaction, stats
      ensures Valid() && Exclusive()
      ensures old(activeGameId).Some? ==> unchanged(this, typing, math, snake, reaction, stats)
      ensures old(activeGameId).None? ==> Shown(fetched, d, now)
    {
      if activeGameId.Some? {
        return;
      }
      OnShow(fetched, d, now);
      ShownKeepsExclusive(activeGameId.value);
    }

    /** Starting one game from an idle session in which nothing runs leaves only that game running. */
    twostate lemma ShownKeepsExclusive(id: GameId)
      requires old(Exclusive()) && old(activeGameId).None?
      requires activeGameId == Some(id) && OthersUnchanged(id)
      ensures Exclusive()
    {
      forall other | other != id
        ensures !Running(other)
      {
        assert Running(other) == old(Running(other));
      }
    }

    /** Hiding stops the only game that may be running: afterwards none is. */
    method OnHideAll(now: int)
      requires Valid() && Exclusive()
      modifies this, typing, math, snake, reaction, stats
      ensures Valid() && Exclusive()
      ensures forall id :: !Running(id)
    {
      OnHide(now);
    }
  }

  /**
   * Two show events with no hide between them, as written: the second pick
   * differs from the first game, which keeps running, and the hide that
   * follows stops only the second one, so the first is never stopped and
   * its result never recorded.
   */
  method DoubleShowOrphansFirstGame(s: Session, fetched: Option<map<string, Stats.Entry>>,
                                    d1: Draws, d2: Draws, now: int)
    returns (first: GameId, second: GameId)
    requires s.Valid() && s.Exclusive() && s.activeGameId.None?
    requires s.Enough(d1) && s.Enough(d2)
    modifies s, s.typing, s.math, s.snake, s.reaction, s.stats
    ensures first != second
    ensures s.activeGameId == None && s.Running(first) && !s.Exclusive()
  {
    s.OnShow(fetched, d1, now);
    first := s.activeGameId.value;
    s.OnShow(fetched, d2, now);
    second := s.activeGameId.value;
    s.OnHide(now);
  }
}

=== FILE: arithmetic.dfy ===
/**
 * The arithmetic drill: one problem at a time over +, -, x and /, built so
 * that every answer is a non-negative integer; Enter submits the typed answer.
 */
module Arithmetic {
  import opened Common

  datatype Op = Add | Sub | Mul | Div

  /** The operand pair and operator shown to the player. */
  datatype Problem = Problem(a: int, op: Op, b: int)

  /** The operator table, indexed by `Math.floor(Math.random() * 4)`. */
  const Ops: seq<Op> := [Add, Sub, Mul, Div]

  /** `rand(min, max)`: `Math.floor(u * (max - min + 1)) + min`. */
  function Rand(min: int, max: int, u: Unit): (r: int)
    requires min <= max
    ensures min <= r <= max
  {
    Draw(u, max - min + 1) + min
  }

  /** The draw `(k - min) / (max - min + 1)` makes `Rand` return `k`. */
  lemma RandHits(min: int, max: int, k: int) returns (u: Unit)
    requires min <= k <= max
    ensures Rand(min, max, u) == k
  {
    DrawHits(k - min, max - min + 1);
    u := (k - min) as real / (max - min + 1) as real;
  }

  /** What the displayed problem evaluates to. */
  function Eval(p: Problem): int
    requires p.op == Div ==> p.b != 0
  {
    match p.op
    case Add => p.a + p.b
    case Sub => p.a - p.b
    case Mul => p.a * p.b
    case Div => p.a / p.b
  }

  /** The operand ranges `nextProblem` draws from. */
  predicate InRange(p: Problem) {
    match p.op
    case Add => 1 <= p.a <= 50 && 1 <= p.b <= 50
    case Sub => 2 <= p.a <= 50 && 1 <= p.b <= p.a
    case Mul => 2 <= p.a <= 12 && 2 <= p.b <= 12
    case Div => 2 <= p.b <= 12 && p.a % p.b == 0 && 1 <= p.a / p.b <= 12
  }

  /**
   * `nextProblem` for the draws u0 (operator), u1 and u2 (the two `rand`
   * calls, in call order). The stored answer is what the displayed operands
   * evaluate to, subtraction never goes below zero and division is exact.
   */
  function Generate(u0: Unit, u1: Unit, u2: Unit): (g: (Problem, int))
    ensures InRange(g.0)
    ensures g.1 == Eval(g.0)
    ensures g.0.op == Sub ==> g.1 >= 0
    ensures g.0.op == Div ==> g.0.a == g.0.b * g.1 && 1 <= g.1 <= 12
  {
    match Ops[Draw(u0, |Ops|)]
    case Add =>
      var a := Rand(1, 50, u1);
      var b := Rand(1, 50, u2);
      (Problem(a, Add, b), a + b)
    case Sub =>
      var a := Rand(2, 50, u1);
      var b := Rand(1, a, u2);
      (Problem(a, Sub, b), a - b)
    case Mul =>
      var a := Rand(2, 12, u1);
      var b := Rand(2, 12, u2);
      (Problem(a, Mul, b), a * b)
    case Div =>
      var b := Rand(2, 12, u1);
      var answer := Rand(1, 12, u2);
      DivExact(b, answer);
      (Problem(b * answer, Div, b), answer)
  }

  lemma DivExact(b: int, q: int)
    requires b > 0
    ensures (b * q) % b == 0 && (b * q) / b == q
  {
    var m := b * q;
    var d, r := m / b, m % b;
    assert m == b * d + r && 0 <= r < b;
    assert b * (q - d) == r;
    if q - d >= 1 {
      MulMono(b, 1, q - d);
    } else if q - d <= -1 {
      MulMono(b, q - d, -1);
    }
  }

  /** Conversely, every problem in the ranges is produced by some draws. */
  lemma GenerateCovers(p: Problem) returns (u0: Unit, u1: Unit, u2: Unit)
    requires InRange(p)
    ensures Generate(u0, u1, u2).0 == p
  {
    var idx := match p.op case Add => 0 case Sub => 1 case Mul => 2 case Div => 3;
    u0 := OpDraw(idx);
    assert Ops[idx] == p.op;
    match p.op
    case Add =>
      u1 := RandHits(1, 50, p.a);
      u2 := RandHits(1, 50, p.b);
    case Sub =>
      u1 := RandHits(2, 50, p.a);
      u2 := RandHits(1, p.a, p.b);
    case Mul =>
      u1 := RandHits(2, 12, p.a);
      u2 := RandHits(2, 12, p.b);
    case Div =>
      var q := Quotient(p.a, p.b);
      u1 := RandHits(2, 12, p.b);
      u2 := RandHits(1, 12, q);
  }

  /** The draw that picks the operator at `idx`. */
  lemma OpDraw(idx: nat) returns (u0: Unit)
    requires idx < |Ops|
    ensures Draw(u0, |Ops|) == idx
  {
    DrawHits(idx, 4);
    u0 := idx as real / 4 as real;
  }

  /** An exact quotient multiplies back to the dividend. */
  lemma Quotient(a: int, b: int) returns (q: int)
    requires b > 0 && a % b == 0
    ensures q == a / b && b * q == a
  {
    q := a / b;
  }

  // ---------------------------------------------------------------------------
  // parseInt(text, 10)

  predicate IsDigit(c: char) { '0' <= c <= '9' }

  /** The longest prefix of decimal digits. */
  function DigitPrefix(s: string): (d: string)
    ensures |d| <= |s| && d == s[..|d|]
    ensures forall i :: 0 <= i < |d| ==> IsDigit(d[i])
    ensures |d| < |s| ==> !IsDigit(s[|d|])
  {
    if s != [] && IsDigit(s[0]) then [s[0]] + DigitPrefix(s[1..]) else []
  }

  function DigitsValue(d: string): nat
    requires forall i :: 0 <= i < |d| ==> IsDigit(d[i])
  {
    if d == [] then 0
    else
      var last := d[|d| - 1];
      assert IsDigit(last);
      DigitsValue(d[..|d| - 1]) * 10 + (last as int - '0' as int)
  }

  /**
   * `parseInt(text, 10)`: skip leading white space, take an optional sign,
   * then the longest run of digits; no digit at all is NaN (`None`).
   */
  function ParseInt(text: string): (r: Option<int>)
    ensures r.None? <==> DigitPrefix(SignDropped(TrimStart(text))) == []
  {
    var t := TrimStart(text);
    var rest := SignDropped(t);
    var digits := DigitPrefix(rest);
    if digits == [] then None
    else if t[0] == '-' then Some(0 - DigitsValue(digits) as int)
    else Some(DigitsValue(digits))
  }

  function SignDropped(t: string): string {
    if t != [] && (t[0] == '-' || t[0] == '+') then t[1..] else t
  }

  /** Decimal text of a natural number, most significant digit first. */
  function ShowNat(n: nat): (s: string)
    ensures s != [] && forall i :: 0 <= i < |s| ==> IsDigit(s[i])
  {
    if n < 10 then [('0' as int + n) as char]
    else ShowNat(n / 10) + [('0' as int + n % 10) as char]
  }

  /** What a player types for the answer `n`. */
  function ShowInt(n: int): string {
    if n < 0 then "-" + ShowNat(-n) else ShowNat(n)
  }

  lemma {:induction false} ShowNatValue(n: nat)
    ensures DigitsValue(ShowNat(n)) == n
    decreases n
  {
    var s := ShowNat(n);
    if n >= 10 {
      ShowNatValue(n / 10);
      assert s[..|s| - 1] == ShowNat(n / 10);
    }
  }

  lemma {:induction false} DigitPrefixAll(s: string)
    requires forall i :: 0 <= i < |s| ==> IsDigit(s[i])
    ensures DigitPrefix(s) == s
    decreases |s|
  {
    if s != [] {
      DigitPrefixAll(s[1..]);
    }
  }

  /** Typing the decimal text of an integer submits exactly that integer. */
  lemma ParseShowRoundTrip(n: int)
    ensures ParseInt(ShowInt(n)) == Some(n)
  {
    var m := if n < 0 then -n else n;
    ShowIntShape(n);
    DigitPrefixAll(ShowNat(m));
    ShowNatValue(m);
  }

  /** The decimal text has no leading white space, and its sign is a minus exactly for a negative number. */
  lemma ShowIntShape(n: int)
    ensures TrimStart(ShowInt(n)) == ShowInt(n)
    ensures SignDropped(ShowInt(n)) == ShowNat(if n < 0 then -n else n)
    ensures ShowInt(n)[0] == '-' <==> n < 0
  {
    var text := ShowInt(n);
    if n < 0 {
      assert text[0] == '-';
      assert text[1..] == ShowNat(-n);
    } else {
      assert text == ShowNat(n) && IsDigit(text[0]);
    }
  }

  /** Text with no digit after the white space and sign is rejected. */
  lemma LetterRejected(text: string)
    requires text != [] && 'a' <= text[0] <= 'z'
    ensures ParseInt(text) == None
  {
    assert !IsJsSpace(text[0]) && !IsDigit(text[0]);
    assert TrimStart(text) == text;
    assert SignDropped(text) == text;
    assert DigitPrefix(text) == [];
  }

  // ---------------------------------------------------------------------------
  // The game object

  class MathGame {
    var streak: nat
    var bestStreak: nat
    var correct: nat
    var total: nat
    var answer: int
    /** The problem on display, once one has been generated. */
    var problem: Option<Problem>
    /** The Enter listener on the answer field is attached. */
    var listening: bool

    /** Counters are consistent and the stored answer matches the problem on display. */
    ghost predicate Valid()
      reads this
    {
      && correct <= total
      && streak <= bestStreak <= correct
      && (problem.Some? ==> InRange(problem.value) && answer == Eval(problem.value))
    }

    constructor ()
      ensures Valid() && !listening && problem == None
    {
      streak, bestStreak, correct, total := 0, 0, 0, 0;
      answer := 0;
      problem := None;
      listening := false;
    }

    method Start(u0: Unit, u1: Unit, u2: Unit)
      modifies this
      ensures Valid()
      ensures streak == 0 && bestStreak == 0 && correct == 0 && total == 0
      ensures problem == Some(Generate(u0, u1, u2).0) && answer == Generate(u0, u1, u2).1
      ensures listening
    {
      streak, bestStreak, correct, total := 0, 0, 0, 0;
      NextProblem(u0, u1, u2);
      listening := true;
    }

    method Stop() returns (r: SessionResult)
      requires Valid()
      modifies this
      ensures Valid() && !listening
      ensures r == MathResult(correct, total, bestStreak)
      ensures r.correct <= r.total
      ensures correct == old(correct) && total == old(total) && bestStreak == old(bestStreak)
      ensures streak == old(streak) && problem == old(problem) && answer == old(answer)
    {
      listening := false;
      r := MathResult(correct, total, bestStreak);
    }

    /** Overwrites the problem on display and its answer. */
    method NextProblem(u0: Unit, u1: Unit, u2: Unit)
      modifies this
      ensures problem == Some(Generate(u0, u1, u2).0) && answer == Generate(u0, u1, u2).1
      ensures streak == old(streak) && bestStreak == old(bestStreak)
      ensures correct == old(correct) && total == old(total) && listening == old(listening)
    {
      var g := Generate(u0, u1, u2);
      problem := Some(g.0);
      answer := g.1;
    }

    /** Only Enter submits, and only while the listener is attached. */
    method OnKeydown(key: string, text: string, u0: Unit, u1: Unit, u2: Unit)
      requires Valid()
      modifies this
      ensures Valid()
      ensures !(old(listening) && key == "Enter") ==> unchanged(this)
      ensures old(listening) && key == "Enter" && ParseInt(text).None? ==> unchanged(this)
      ensures old(listening) && key == "Enter" && ParseInt(text).Some? ==> Answered(text, u0, u1, u2)
    {
      if listening && key == "Enter" {
        Submit(text, u0, u1, u2);
      }
    }

    /**
     * Text that does not parse changes nothing. Otherwise one more attempt;
     * a match extends the streak (and the best streak), a miss resets it;
     * then the next problem is drawn.
     */
    /**
     * The effect of a parsable answer: one more answer, a match extends the
     * streak and the best streak, a miss resets the streak, and the next
     * problem comes from the three draws.
     */
    twostate predicate Answered(text: string, u0: Unit, u1: Unit, u2: Unit)
      reads this
    {
      && listening == old(listening)
      && total == old(total) + 1
      && problem == Some(Generate(u0, u1, u2).0) && answer == Generate(u0, u1, u2).1
      && (ParseInt(text) == Some(old(answer)) ==>
            && correct == old(correct) + 1 && streak == old(streak) + 1
            && bestStreak == Max(old(bestStreak), streak))
      && (ParseInt(text) != Some(old(answer)) ==>
            correct == old(correct) && streak == 0 && bestStreak == old(bestStreak))
    }

    method Submit(text: string, u0: Unit, u1: Unit, u2: Unit)
      requires Valid()
      modifies this
      ensures Valid()
      ensures ParseInt(text).None? ==> unchanged(this)
      ensures ParseInt(text).Some? ==> Answered(text, u0, u1, u2)
      ensures listening == old(listening)
    {
      var val := ParseInt(text);
      if val.None? {
        return;
      }
      Score(val.value == answer);
      NextProblem(u0, u1, u2);
    }

    /** One more answer; a right one extends the streak and, past it, the best streak; a wrong one resets the streak. */
    method Score(right: bool)
      requires correct <= total && streak <= bestStreak <= correct
      modifies this`total, this`correct, this`streak, this`bestStreak
      ensures correct <= total && streak <= bestStreak <= correct
      ensures total == old(total) + 1
      ensures right ==> correct == old(correct) + 1 && streak == old(streak) + 1
                        && bestStreak == Max(old(bestStreak), streak)
      ensures !right ==> correct == old(correct) && streak == 0 && bestStreak == old(bestStreak)
    {
      total := total + 1;
      if right {
        correct := correct + 1;
        streak := streak + 1;
        if streak > bestStreak {
          bestStreak := streak;
        }
      } else {
        streak := 0;
      }
    }
  }

  /**
   * A fresh session with three right answers and then a wrong one ends with
   * 3 correct out of 4 and a best streak of 3, whatever problems are drawn.
   */
  method ThreeRightOneWrong(d: seq<Unit>) returns (r: SessionResult)
    requires |d| == 15
    ensures r == MathResult(3, 4, 3)
  {
    var g := new MathGame();
    g.Start(d[0], d[1], d[2]);
    AnswerRight(g, d[3], d[4], d[5]);
    AnswerRight(g, d[6], d[7], d[8]);
    AnswerRight(g, d[9], d[10], d[11]);
    assert g.correct == 3 && g.total == 3 && g.bestStreak == 3;
    AnswerWrong(g, d[12], d[13], d[14]);
    r := g.Stop();
  }

  /** Typing the expected answer scores it. */
  method AnswerRight(g: MathGame, u0: Unit, u1: Unit, u2: Unit)
    requires g.Valid()
    modifies g
    ensures g.Valid()
    ensures g.total == old(g.total) + 1 && g.correct == old(g.correct) + 1
    ensures g.streak == old(g.streak) + 1 && g.bestStreak == Max(old(g.bestStreak), g.streak)
  {
    var text := ShowInt(g.answer);
    ParseShowRoundTrip(g.answer);
    g.Submit(text, u0, u1, u2);
  }

  /** Typing anything else that parses counts as a miss. */
  method AnswerWrong(g: MathGame, u0: Unit, u1: Unit, u2: Unit)
    requires g.Valid()
    modifies g
    ensures g.Valid()
    ensures g.total == old(g.total) + 1 && g.correct == old(g.correct)
    ensures g.streak == 0 && g.bestStreak == old(g.bestStreak)
  {
    var text := ShowInt(g.answer + 1);
    ParseShowRoundTrip(g.answer + 1);
    g.Submit(text, u0, u1, u2);
  }
}

=== FILE: common.dfy ===
/**
 * Shared vocabulary of the game session engine: optional values, the outcome
 * of one `Math.random()` call, JavaScript's `Math.round` on an exact quotient,
 * key-name lower-casing and the result record every game's `stop()` returns.
 */
module Common {

  datatype Option<T> = None | Some(value: T)

  /** JavaScript truthiness of a number-or-null field: `null` and `0` are falsy. */
  predicate Truthy(t: Option<int>) {
    t.Some? && t.value != 0
  }

  /** One outcome of `Math.random()`: a real number in [0, 1). */
  type Unit = u: real | 0.0 <= u < 1.0

  /** `Math.floor(u * n)` for a draw `u`: an index in [0, n). */
  function Draw(u: Unit, n: nat): (k: nat)
    requires n > 0
    ensures k < n
    ensures k as real <= u * n as real < k as real + 1.0
  {
    assert 0.0 <= u * n as real < n as real;
    (u * n as real).Floor
  }

  /** The draw `k / n` makes `Draw` pick index `k`: every index is reachable. */
  lemma DrawHits(k: nat, n: nat)
    requires k < n
    ensures 0.0 <= k as real / n as real < 1.0
    ensures Draw(k as real / n as real, n) == k
  {
    var u := k as real / n as real;
    assert u * n as real == k as real;
  }

  /**
   * `Math.round(n / d)` for a positive divisor, computed exactly: the integer
   * nearest to n / d, with halves rounded up (towards +infinity).
   */
  function RoundDiv(n: int, d: int): (r: int)
    requires d > 0
    ensures d * (2 * r - 1) <= 2 * n < d * (2 * r + 1)
  {
    var r := (2 * n + d) / (2 * d);
    assert 2 * d * r <= 2 * n + d < 2 * d * r + 2 * d;
    r
  }

  /** A rounded quotient of a value lying between lo*d and hi*d lies between lo and hi. */
  lemma RoundDivBetween(n: int, d: int, lo: int, hi: int)
    requires d > 0
    requires lo * d <= n <= hi * d
    ensures lo <= RoundDiv(n, d) <= hi
  {
    var r := RoundDiv(n, d);
    assert d * (2 * r - 1) <= 2 * n < d * (2 * r + 1);
    if r < lo {
      MulMono(d, 2 * r + 1, 2 * lo);
      MulTwice(d, lo);
      assert false;
    }
    if r > hi {
      MulMono(d, 2 * hi + 1, 2 * r - 1);
      MulTwice(d, hi);
      assert false;
    }
  }

  /** A rounded quotient of a non-negative value is non-negative. */
  lemma RoundDivNonNegative(n: int, d: int)
    requires d > 0 && n >= 0
    ensures RoundDiv(n, d) >= 0
  {
    assert 2 * n + d >= 0 && 2 * d > 0;
  }

  lemma MulTwice(d: int, k: int)
    ensures d * (2 * k) == 2 * (k * d)
    ensures d * (2 * k + 1) == 2 * (k * d) + d
  {
  }

  lemma MulMono(d: int, a: int, b: int)
    requires d > 0 && a <= b
    ensures d * a <= d * b
  {
    assert d * b - d * a == d * (b - a);
  }

  /** An exact quotient is returned unchanged by the rounding. */
  lemma RoundDivExact(k: int, d: int)
    requires d > 0
    ensures RoundDiv(k * d, d) == k
  {
    RoundDivBetween(k * d, d, k, k);
  }

  /** `Math.round(x)` for a real `x`: floor(x + 1/2). */
  function Round(x: real): (r: int)
    ensures r as real - 0.5 <= x < r as real + 0.5
  {
    (x + 0.5).Floor
  }

  /**
   * `toLowerCase()` restricted to the ASCII letters. For the key names the
   * games compare against ("w", "arrowup", "r", ...) this gives the same
   * answer as the full Unicode mapping.
   */
  function AsciiLower(s: string): (r: string)
    ensures |r| == |s|
    ensures forall i :: 0 <= i < |s| ==> r[i] == LowerChar(s[i])
  {
    if s == [] then [] else [LowerChar(s[0])] + AsciiLower(s[1..])
  }

  function LowerChar(c: char): char {
    if 'A' <= c <= 'Z' then (c as int + 32) as char else c
  }

  /**
   * The characters JavaScript's `trim()` and `parseInt` skip: the WhiteSpace
   * and LineTerminator code points of the ECMAScript grammar.
   */
  predicate IsJsSpace(c: char) {
    || c == '\t' || c == '\U{B}' || c == '\U{C}' || c == ' ' || c == '\U{A0}' || c == '\U{FEFF}'
    || c == '\U{1680}' || '\U{2000}' <= c <= '\U{200A}' || c == '\U{202F}' || c == '\U{205F}' || c == '\U{3000}'
    || c == '\n' || c == '\r' || c == '\U{2028}' || c == '\U{2029}'
  }

  /** The input with its leading JavaScript white space removed. */
  function TrimStart(s: string): (r: string)
    ensures |r| <= |s| && r == s[|s| - |r|..]
    ensures r != [] ==> !IsJsSpace(r[0])
    ensures forall i :: 0 <= i < |s| - |r| ==> IsJsSpace(s[i])
  {
    if s != [] && IsJsSpace(s[0]) then TrimStart(s[1..]) else s
  }

  /** The input with its trailing JavaScript white space removed. */
  function TrimEnd(s: string): (r: string)
    ensures |r| <= |s| && r == s[..|r|]
    ensures r != [] ==> !IsJsSpace(r[|r| - 1])
    ensures forall i :: |r| <= i < |s| ==> IsJsSpace(s[i])
  {
    if s != [] && IsJsSpace(s[|s| - 1]) then TrimEnd(s[..|s| - 1]) else s
  }

  /** Every character of the text is JavaScript white space. */
  predicate AllJsSpace(x: string) {
    forall k :: 0 <= k < |x| ==> IsJsSpace(x[k])
  }

  /**
   * `String.prototype.trim`: the input with white space before and after it
   * cut away, empty exactly when the input is all white space.
   */
  function Trim(s: string): (r: string)
    ensures r == [] <==> AllJsSpace(s)
    ensures r != [] ==> !IsJsSpace(r[0]) && !IsJsSpace(r[|r| - 1])
    ensures exists i, j :: 0 <= i <= j <= |s| && r == s[i..j] && AllJsSpace(s[..i]) && AllJsSpace(s[j..])
  {
    TrimEnds(s);
    TrimSplit(s);
    TrimEnd(TrimStart(s))
  }

  /** Trimming leaves nothing exactly when all is white space, and otherwise no white space at either end. */
  lemma TrimEnds(s: string)
    ensures TrimEnd(TrimStart(s)) == [] <==> AllJsSpace(s)
    ensures var r := TrimEnd(TrimStart(s)); r != [] ==> !IsJsSpace(r[0]) && !IsJsSpace(r[|r| - 1])
  {
    var t := TrimStart(s);
    var r := TrimEnd(t);
    if r != [] {
      assert r[0] == t[0];
      assert t[0] == s[|s| - |t|];
    }
  }

  /** The trimmed text is a slice of the input with only white space before and after it. */
  lemma TrimSplit(s: string)
    ensures exists i, j :: 0 <= i <= j <= |s| && TrimEnd(TrimStart(s)) == s[i..j] && AllJsSpace(s[..i]) && AllJsSpace(s[j..])
  {
    var t := TrimStart(s);
    var r := TrimEnd(t);
    var i := |s| - |t|;
    SuffixSlices(s, t, |r|);
    LeadIsSpace(s);
    TrailIsSpace(t);
    assert AllJsSpace(s[..i]) && AllJsSpace(s[i + |r|..]);
  }

  /** Slicing a suffix of a sequence is slicing the sequence further along. */
  lemma SuffixSlices<T>(s: seq<T>, t: seq<T>, k: nat)
    requires |t| <= |s| && t == s[|s| - |t|..] && k <= |t|
    ensures t[k..] == s[|s| - |t| + k..]
    ensures t[..k] == s[|s| - |t|..|s| - |t| + k]
  {
  }

  /** What `TrimStart` cuts away is white space. */
  lemma LeadIsSpace(s: string)
    ensures AllJsSpace(s[..|s| - |TrimStart(s)|])
  {
    var lead := s[..|s| - |TrimStart(s)|];
    forall k | 0 <= k < |lead|
      ensures IsJsSpace(lead[k])
    {
      assert lead[k] == s[k];
    }
  }

  /** What `TrimEnd` cuts away is white space. */
  lemma TrailIsSpace(t: string)
    ensures AllJsSpace(t[|TrimEnd(t)|..])
  {
    var r := TrimEnd(t);
    var trail := t[|r|..];
    forall k | 0 <= k < |trail|
      ensures IsJsSpace(trail[k])
    {
      assert trail[k] == t[|r| + k];
    }
  }

  /**
   * The record returned by each game's `stop()`, one shape per game.
   * Every field is a non-negative integer.
   */
  datatype SessionResult =
    | TypingResult(wpm: nat, accuracy: nat)
    | MathResult(correct: nat, total: nat, streak: nat)
    | SnakeResult(score: nat)
    | ReactionResult(ms: nat, avg: nat, attempts: nat)
    | MemoryResult(level: nat, bestLevel: nat)
    | StroopResult(correct: nat, total: nat, streak: nat)

  function Max(a: int, b: int): int { if a > b then a else b }
}

=== FILE: memory.dfy ===
/**
 * The tile-memory game: a sequence of arrow tiles grows by one tile per
 * level, is shown one tile every 600 ms, and must then be repeated with the
 * arrow keys; a wrong key ends the run and a restart follows.
 */
module Memory {
  import opened Common

  datatype Tile = Up | Down | Left | Right
  datatype State = Idle | Showing | Input | GameOver

  /** What a scheduled `setTimeout` callback does when it fires. */
  datatype Action =
    | LightOn(tile: Tile)
    | LightOff(tile: Tile)
    | ClearCorrect(tile: Tile)
    | BeginInput
    | AdvanceLevel
    | Restart

  datatype Timer = Timer(delayMs: nat, action: Action)

  const FirstShowMs: nat := 300
  const ShowStepMs: nat := 600
  const LitMs: nat := 400
  const CorrectFlashMs: nat := 200
  const AdvanceDelayMs: nat := 800
  const RestartDelayMs: nat := 1500

  /** `tileKeys`, in their order. */
  const TileKeys: seq<Tile> := [Up, Down, Left, Right]

  /** The tile `nextLevel` appends for the random draw `u`. */
  function TileOf(u: Unit): Tile {
    TileKeys[Draw(u, 4)]
  }

  lemma TileOfCovers(t: Tile)
    ensures exists u: Unit :: TileOf(u) == t
  {
    var k := if t == Up then 0 else if t == Down then 1 else if t == Left then 2 else 3;
    DrawHits(k, 4);
    assert TileOf(k as real / 4.0) == t;
  }

  /** The arrow-key table of `onKeydown`; key names are matched exactly. */
  function KeyTile(key: string): (t: Option<Tile>)
    ensures t.Some? <==> key in {"ArrowUp", "ArrowDown", "ArrowLeft", "ArrowRight"}
  {
    if key == "ArrowUp" then Some(Up)
    else if key == "ArrowDown" then Some(Down)
    else if key == "ArrowLeft" then Some(Left)
    else if key == "ArrowRight" then Some(Right)
    else None
  }

  /** Callbacks that change the game's state rather than only a tile's look. */
  predicate IsControl(a: Action) {
    a.BeginInput? || a.AdvanceLevel? || a.Restart?
  }

  /** The state-changing callbacks among the pending timers, in order. */
  function Controls(ts: seq<Timer>): (cs: seq<Action>)
    ensures forall i :: 0 <= i < |cs| ==> IsControl(cs[i])
  {
    if ts == [] then []
    else (if IsControl(ts[0].action) then [ts[0].action] else []) + Controls(ts[1..])
  }

  lemma {:induction false} ControlsAppend(a: seq<Timer>, b: seq<Timer>)
    ensures Controls(a + b) == Controls(a) + Controls(b)
    decreases |a|
  {
    if a == [] {
      assert a + b == b;
    } else {
      assert (a + b)[1..] == a[1..] + b;
      ControlsAppend(a[1..], b);
    }
  }

  lemma ControlsSingle(t: Timer)
    ensures Controls([t]) == if IsControl(t.action) then [t.action] else []
  {
    assert [t][1..] == [];
  }

  /**
   * Firing the timer at `k` removes it: a control callback must be the one
   * the state was waiting for and leaves none behind; any other leaves the
   * control callbacks as they were.
   */
  lemma ControlsRemove(ts: seq<Timer>, k: nat, waiting: seq<Action>)
    requires k < |ts| && Controls(ts) == waiting && |waiting| <= 1
    ensures IsControl(ts[k].action) ==>
      waiting == [ts[k].action] && Controls(ts[..k] + ts[k + 1..]) == []
    ensures !IsControl(ts[k].action) ==> Controls(ts[..k] + ts[k + 1..]) == waiting
  {
    ControlsSplit(ts, k);
    ControlsSingle(ts[k]);
    if IsControl(ts[k].action) {
      assert |Controls(ts[..k])| + 1 + |Controls(ts[k + 1..])| == |waiting|;
    }
  }

  /** The control callbacks of a list, split around position `k`. */
  lemma ControlsSplit(ts: seq<Timer>, k: nat)
    requires k < |ts|
    ensures Controls(ts) == Controls(ts[..k]) + Controls([ts[k]]) + Controls(ts[k + 1..])
    ensures Controls(ts[..k] + ts[k + 1..]) == Controls(ts[..k]) + Controls(ts[k + 1..])
  {
    SplitAt(ts, k);
    ControlsAround(ts[..k], ts[k], ts[k + 1..]);
    ControlsAppend(ts[..k], ts[k + 1..]);
  }

  lemma ControlsAround(before: seq<Timer>, t: Timer, after: seq<Timer>)
    ensures Controls(before + ([t] + after)) == Controls(before) + Controls([t]) + Controls(after)
  {
    ControlsAppend(before, [t] + after);
    ControlsAppend([t], after);
  }

  lemma SplitAt<T>(ts: seq<T>, k: nat)
    requires k < |ts|
    ensures ts == ts[..k] + ([ts[k]] + ts[k + 1..])
  {
  }

  /** The light-on / light-off pair for each tile: on at 300 + 600 i ms, off 400 ms later. */
  function LightTimers(s: seq<Tile>): (ts: seq<Timer>)
    ensures |ts| == 2 * |s|
    ensures forall i :: 0 <= i < |s| ==>
      ts[2 * i] == Timer(FirstShowMs + ShowStepMs * i, LightOn(s[i]))
      && ts[2 * i + 1] == Timer(FirstShowMs + ShowStepMs * i + LitMs, LightOff(s[i]))
  {
    if s == [] then []
    else
      var n := |s| - 1;
      var p := LightTimers(s[..n]);
      assert forall i :: 0 <= i < n ==> s[..n][i] == s[i];
      p + LightPair(n, s[n])
  }

  /** The i-th tile lights at 300 + 600 i ms and goes dark 400 ms later. */
  function LightPair(i: nat, t: Tile): seq<Timer> {
    [Timer(FirstShowMs + ShowStepMs * i, LightOn(t)), Timer(FirstShowMs + ShowStepMs * i + LitMs, LightOff(t))]
  }

  lemma LightPairNoControl(i: nat, t: Tile)
    ensures Controls(LightPair(i, t)) == []
  {
    var pair := LightPair(i, t);
    assert pair == [pair[0]] + [pair[1]];
    ControlsAppend([pair[0]], [pair[1]]);
    ControlsSingle(pair[0]);
    ControlsSingle(pair[1]);
  }

  /** Everything `showSequence` schedules: the lights, then the switch to input. */
  function ShowTimers(s: seq<Tile>): seq<Timer> {
    LightTimers(s) + [Timer(FirstShowMs + ShowStepMs * |s|, BeginInput)]
  }

  lemma {:induction false} LightTimersNoControl(s: seq<Tile>)
    ensures Controls(LightTimers(s)) == []
    decreases |s|
  {
    if s != [] {
      var n := |s| - 1;
      LightTimersNoControl(s[..n]);
      assert LightTimers(s) == LightTimers(s[..n]) + LightPair(n, s[n]);
      ControlsAppend(LightTimers(s[..n]), LightPair(n, s[n]));
      LightPairNoControl(n, s[n]);
    }
  }

  /** Every light timer of the i-th tile is due before 300 + 600 (i + 1) ms. */
  lemma LightDueBefore(s: seq<Tile>, j: nat)
    requires j < |LightTimers(s)|
    ensures LightTimers(s)[j].delayMs < FirstShowMs + ShowStepMs * |s|
  {
    var i := j / 2;
    assert j == 2 * i || j == 2 * i + 1;
    MulMono(ShowStepMs, i + 1, |s|);
  }

  /**
   * The showing phase schedules exactly one state-changing callback, the
   * switch to input, and it is due after the last tile has gone dark.
   */
  lemma ShowTimersShape(s: seq<Tile>)
    ensures Controls(ShowTimers(s)) == [BeginInput]
    ensures forall j :: 0 <= j < |LightTimers(s)| ==>
      LightTimers(s)[j].delayMs < ShowTimers(s)[|ShowTimers(s)| - 1].delayMs
  {
    var last := Timer(FirstShowMs + ShowStepMs * |s|, BeginInput);
    LightTimersNoControl(s);
    ControlsAppend(LightTimers(s), [last]);
    ControlsSingle(last);
    forall j | 0 <= j < |LightTimers(s)| ensures LightTimers(s)[j].delayMs < last.delayMs {
      LightDueBefore(s, j);
    }
  }

  /** The control callback each state is waiting for while the game runs. */
  function Expected(state: State): seq<Action> {
    match state
    case Showing => [BeginInput]
    case Idle => [AdvanceLevel]
    case GameOver => [Restart]
    case Input => []
  }

  class MemoryGame {
    var sequence: seq<Tile>
    var inputIndex: nat
    var level: nat
    var bestLevel: nat
    var state: State
    /** The scheduled callbacks that have neither fired nor been cleared. */
    var timeouts: seq<Timer>
    /** The keydown listener is attached (between `start()` and `stop()`). */
    var listening: bool

    /**
     * One tile per level, the best level at least the current one, the
     * input position within the sequence; while the game runs exactly the
     * callback its state waits for is pending, and a stopped game has none.
     */
    ghost predicate Valid()
      reads this
    {
      && |sequence| == level <= bestLevel
      && inputIndex <= |sequence|
      && (!listening ==> timeouts == [])
      && (listening ==> level >= 1 && Controls(timeouts) == Expected(state))
      && (listening && state == Input ==> inputIndex < |sequence|)
      && (listening && state == Showing ==> inputIndex == 0)
    }

    constructor ()
      ensures Valid() && !listening && level == 0 && bestLevel == 0 && state == Idle
    {
      sequence := [];
      inputIndex := 0;
      level, bestLevel := 0, 0;
      state := Idle;
      timeouts := [];
      listening := false;
    }

    /** A run starts from level 0 with an empty sequence and goes straight to level 1. */
    method Start(u: Unit)
      requires Valid() && !listening
      modifies this
      ensures Valid() && listening
      ensures level == 1 && bestLevel == 1 && sequence == [TileOf(u)] && inputIndex == 0
      ensures state == Showing && timeouts == ShowTimers(sequence)
    {
      level, bestLevel := 0, 0;
      sequence := [];
      inputIndex := 0;
      state := Idle;
      listening := true;
      NextLevel(u);
    }

    /** Detaches the listener, clears every pending callback and reports the levels. */
    method Stop() returns (r: SessionResult)
      requires Valid()
      modifies this
      ensures Valid() && !listening && timeouts == []
      ensures r == MemoryResult(old(level), old(bestLevel))
      ensures level == old(level) && bestLevel == old(bestLevel) && sequence == old(sequence)
    {
      listening := false;
      ClearTimeouts();
      r := MemoryResult(level, bestLevel);
    }

    method ClearTimeouts()
      modifies this`timeouts
      ensures timeouts == []
    {
      timeouts := [];
    }

    /** One level up: one more random tile, input from the start, and the sequence is shown. */
    method NextLevel(u: Unit)
      requires listening && |sequence| == level <= bestLevel && Controls(timeouts) == []
      modifies this
      ensures Valid()
      ensures level == old(level) + 1 && bestLevel == Max(old(bestLevel), level)
      ensures sequence == old(sequence) + [TileOf(u)] && inputIndex == 0
      ensures state == Showing && timeouts == old(timeouts) + ShowTimers(sequence)
      ensures listening
    {
      level := level + 1;
      if level > bestLevel {
        bestLevel := level;
      }
      sequence := sequence + [TileKeys[Draw(u, 4)]];
      inputIndex := 0;
      ShowSequence();
      ShowTimersShape(sequence);
      ControlsAppend(old(timeouts), ShowTimers(sequence));
    }

    /** Schedules the lights for every tile and, 600 ms per tile after the first 300, the switch to input. */
    method ShowSequence()
      modifies this`state, this`timeouts
      ensures state == Showing && timeouts == old(timeouts) + ShowTimers(sequence)
    {
      state := Showing;
      var delay: nat := FirstShowMs;
      var i := 0;
      while i < |sequence|
        invariant 0 <= i <= |sequence|
        invariant delay == FirstShowMs + ShowStepMs * i
        invariant state == Showing
        invariant timeouts == old(timeouts) + LightTimers(sequence[..i])
      {
        var key := sequence[i];
        timeouts := timeouts + [Timer(delay, LightOn(key))];
        timeouts := timeouts + [Timer(delay + LitMs, LightOff(key))];
        delay := delay + ShowStepMs;
        assert sequence[..i + 1][..i] == sequence[..i];
        i := i + 1;
      }
      assert sequence[..i] == sequence;
      timeouts := timeouts + [Timer(delay, BeginInput)];
      assert timeouts == old(timeouts) + ShowTimers(sequence);
    }

    /**
     * An arrow key while input is expected: the right tile advances the
     * position and, at the end of the sequence, schedules the next level;
     * a wrong tile ends the run and schedules the restart. Any other key,
     * or any key in another state, is ignored.
     */
    method OnKeydown(key: string)
      requires Valid()
      modifies this
      ensures Valid()
      ensures !(old(listening) && old(state) == Input && KeyTile(key).Some?) ==> unchanged(this)
      ensures old(listening) && old(state) == Input && KeyTile(key).Some? ==>
        && level == old(level) && bestLevel == old(bestLevel) && sequence == old(sequence)
        && (if KeyTile(key).value == old(sequence[inputIndex]) then
              && inputIndex == old(inputIndex) + 1
              && (inputIndex == |sequence| ==>
                    state == Idle && timeouts == old(timeouts) + [Timer(CorrectFlashMs, ClearCorrect(KeyTile(key).value)), Timer(AdvanceDelayMs, AdvanceLevel)])
              && (inputIndex < |sequence| ==>
                    state == Input && timeouts == old(timeouts) + [Timer(CorrectFlashMs, ClearCorrect(KeyTile(key).value))])
            else
              state == GameOver && inputIndex == old(inputIndex)
              && timeouts == old(timeouts) + [Timer(RestartDelayMs, Restart)])
    {
      if !listening || state != Input {
        return;
      }
      var tile := KeyTile(key);
      if tile.None? {
        return;
      }
      if tile.value == sequence[inputIndex] {
        AcceptTile(tile.value);
      } else {
        Fail();
      }
    }

    /** The right tile: its flash is scheduled and input moves on; after the last tile the next level is scheduled. */
    method AcceptTile(t: Tile)
      requires Valid() && listening && state == Input && t == sequence[inputIndex]
      modifies this`inputIndex, this`state, this`timeouts
      ensures Valid()
      ensures inputIndex == old(inputIndex) + 1
      ensures inputIndex == |sequence| ==>
        state == Idle && timeouts == old(timeouts) + [Timer(CorrectFlashMs, ClearCorrect(t)), Timer(AdvanceDelayMs, AdvanceLevel)]
      ensures inputIndex < |sequence| ==>
        state == Input && timeouts == old(timeouts) + [Timer(CorrectFlashMs, ClearCorrect(t))]
    {
      var flash := Timer(CorrectFlashMs, ClearCorrect(t));
      ControlsAppend(timeouts, [flash]);
      ControlsSingle(flash);
      timeouts := timeouts + [flash];
      inputIndex := inputIndex + 1;
      if inputIndex >= |sequence| {
        state := Idle;
        var advance := Timer(AdvanceDelayMs, AdvanceLevel);
        ControlsAppend(timeouts, [advance]);
        ControlsSingle(advance);
        timeouts := timeouts + [advance];
      }
    }

    /** A wrong tile: the run is over and the restart is scheduled. */
    method Fail()
      requires Valid() && listening && state == Input
      modifies this`state, this`timeouts
      ensures Valid()
      ensures state == GameOver && timeouts == old(timeouts) + [Timer(RestartDelayMs, Restart)]
    {
      state := GameOver;
      var restart := Timer(RestartDelayMs, Restart);
      ControlsAppend(timeouts, [restart]);
      ControlsSingle(restart);
      timeouts := timeouts + [restart];
    }

    /**
     * The pending callback at position `k` fires and is no longer pending.
     * Only the switch to input enters `Input`; the next-level callback adds
     * a tile; the restart callback starts over from an empty sequence while
     * the best level is kept. Tile lighting changes no game state.
     */
    method Fire(k: nat, u: Unit)
      requires Valid()
      requires k < |timeouts|
      modifies this
      ensures Valid() && listening
      ensures var a := old(timeouts[k].action);
        && (!IsControl(a) ==>
              && timeouts == old(timeouts[..k] + timeouts[k + 1..]) && state == old(state)
              && sequence == old(sequence) && level == old(level) && bestLevel == old(bestLevel)
              && inputIndex == old(inputIndex))
        && (a == BeginInput ==>
              && old(state) == Showing && state == Input && sequence == old(sequence) && inputIndex == 0
              && level == old(level) && bestLevel == old(bestLevel)
              && timeouts == old(timeouts[..k] + timeouts[k + 1..]))
        && (a == AdvanceLevel ==>
              && old(state) == Idle && state == Showing && sequence == old(sequence) + [TileOf(u)]
              && level == old(level) + 1 && bestLevel == Max(old(bestLevel), level) && inputIndex == 0
              && timeouts == old(timeouts[..k] + timeouts[k + 1..]) + ShowTimers(sequence))
        && (a == Restart ==>
              && old(state) == GameOver && state == Showing && sequence == [TileOf(u)]
              && level == 1 && bestLevel == old(bestLevel) && inputIndex == 0
              && timeouts == old(timeouts[..k] + timeouts[k + 1..]) + ShowTimers(sequence))
    {
      var a := timeouts[k].action;
      ControlsRemove(timeouts, k, Expected(state));
      timeouts := timeouts[..k] + timeouts[k + 1..];
      match a {
        case LightOn(_) =>
        case LightOff(_) =>
        case ClearCorrect(_) =>
        case BeginInput =>
          state := Input;
        case AdvanceLevel =>
          NextLevel(u);
        case Restart =>
          RestartRun(u);
      }
    }

    /** The restart callback: back to an empty sequence, then straight to level 1; the best level is kept. */
    method RestartRun(u: Unit)
      requires listening && bestLevel >= 1 && Controls(timeouts) == []
      modifies this
      ensures Valid() && listening && state == Showing
      ensures sequence == [TileOf(u)] && level == 1 && inputIndex == 0 && bestLevel == old(bestLevel)
      ensures timeouts == old(timeouts) + ShowTimers(sequence)
    {
      level := 0;
      sequence := [];
      NextLevel(u);
    }
  }
}

=== FILE: reaction.dfy ===
/**
 * The reflex-timing game: wait for the zone to turn green after a random
 * delay, then press Space; pressing early is penalised and records nothing.
 */
module Reaction {
  import opened Common

  datatype State = Idle | Waiting | Ready | Result | TooEarly

  const MinDelayMs: real := 1500.0
  const DelaySpanMs: real := 3500.0

  function Sum(s: seq<int>): int {
    if s == [] then 0 else Sum(s[..|s| - 1]) + s[|s| - 1]
  }

  /** The smallest sample. */
  function Min(s: seq<int>): (m: int)
    requires s != []
    ensures m in s
    ensures forall i :: 0 <= i < |s| ==> m <= s[i]
  {
    if |s| == 1 then s[0]
    else
      var m := Min(s[..|s| - 1]);
      assert forall i :: 0 <= i < |s| - 1 ==> s[..|s| - 1][i] == s[i];
      if s[|s| - 1] < m then s[|s| - 1] else m
  }

  /** `bestMs || 0` once `bestMs` tracks the samples: the best time, or 0 with none. */
  function BestOrZero(times: seq<int>): int {
    if times == [] then 0 else Min(times)
  }

  /** The rounded mean of the samples, or 0 with none. */
  function MeanOrZero(times: seq<int>): int {
    if times == [] then 0 else RoundDiv(Sum(times), |times|)
  }

  lemma {:induction false} SumNonNegative(s: seq<int>)
    requires forall i :: 0 <= i < |s| ==> s[i] >= 0
    ensures Sum(s) >= 0
    decreases |s|
  {
    if s != [] {
      SumNonNegative(s[..|s| - 1]);
    }
  }

  /** The mean of non-negative samples lies between the best sample and the worst. */
  lemma MeanBetweenBounds(s: seq<int>, lo: int, hi: int)
    requires s != []
    requires forall i :: 0 <= i < |s| ==> lo <= s[i] <= hi
    ensures lo <= MeanOrZero(s) <= hi
  {
    SumBounds(s, lo, hi);
    RoundDivBetween(Sum(s), |s|, lo, hi);
  }

  lemma {:induction false} SumBounds(s: seq<int>, lo: int, hi: int)
    requires forall i :: 0 <= i < |s| ==> lo <= s[i] <= hi
    ensures lo * |s| <= Sum(s) <= hi * |s|
    decreases |s|
  {
    if s != [] {
      var p := s[..|s| - 1];
      SumBounds(p, lo, hi);
      assert lo * |s| == lo * |p| + lo;
      assert hi * |s| == hi * |p| + hi;
    }
  }

  /** Samples 200 and 300 give a best of 200 and a mean of 250. */
  lemma TwoSamplesExample()
    ensures BestOrZero([200, 300]) == 200 && MeanOrZero([200, 300]) == 250
  {
    assert [200, 300][..1] == [200];
    assert Sum([200, 300]) == 500;
  }

  class ReactionGame {
    var state: State
    var bestMs: Option<int>
    var times: seq<int>
    /** The `setTimeout` that calls `goGreen` is scheduled and has neither fired nor been cleared. */
    var timerPending: bool
    /** The delay, in ms, the last such timer was scheduled with. */
    var delayMs: real
    var readyAt: int
    /** The keydown listener is attached (between `start()` and `stop()`). */
    var listening: bool

    /** `bestMs` caches the minimum of the samples; latencies are never negative. */
    ghost predicate Valid()
      reads this
    {
      && (bestMs.None? <==> times == [])
      && (bestMs.Some? ==> bestMs.value == Min(times))
      && (forall i :: 0 <= i < |times| ==> times[i] >= 0)
    }

    constructor ()
      ensures Valid()
      ensures state == Idle && times == [] && !timerPending && !listening
    {
      state := Idle;
      bestMs := None;
      times := [];
      timerPending := false;
      delayMs := 0.0;
      readyAt := 0;
      listening := false;
    }

    /** A pending timer is left alone: `start()` does not clear it. */
    method Start()
      modifies this
      ensures Valid()
      ensures state == Idle && bestMs == None && times == [] && listening
      ensures timerPending == old(timerPending) && delayMs == old(delayMs) && readyAt == old(readyAt)
    {
      state := Idle;
      bestMs := None;
      times := [];
      listening := true;
    }

    /** The session result, as `stop()` computes it from the samples. */
    function Summary(): (r: SessionResult)
      reads this
      requires Valid()
      ensures r.ReactionResult?
      ensures r.attempts == |times|
      ensures r.ms == BestOrZero(times)
      ensures r.avg == MeanOrZero(times)
      ensures times != [] ==> r.ms in times && r.ms <= r.avg
    {
      SumNonNegative(times);
      MinAtMostMean(times);
      var best := if bestMs.Some? then bestMs.value else 0;
      var avg := if |times| > 0 then RoundDiv(Sum(times), |times|) else 0;
      ReactionResult(best, avg, |times|)
    }

    /** Detaches the listener, clears the pending timer and returns the summary. */
    method Stop() returns (r: SessionResult)
      requires Valid()
      modifies this
      ensures Valid()
      ensures r == old(Summary())
      ensures !listening && !timerPending
      ensures state == old(state) && times == old(times) && bestMs == old(bestMs)
    {
      listening := false;
      timerPending := false;
      r := Summary();
    }

    /** Only Space reaches `onAction`, and only while the listener is attached. */
    method OnKeydown(key: string, u: Unit, now: int)
      requires Valid()
      requires state == Ready ==> now >= readyAt
      modifies this
      ensures Valid()
      ensures !(old(listening) && key == " ") ==> unchanged(this)
      ensures old(listening) && key == " " ==> Acted(u, now)
    {
      if listening && key == " " {
        OnAction(u, now);
      }
    }

    /**
     * Space: idle, result and too-early start a new wait; waiting is too
     * early; ready records the latency. No action ever reaches `Ready`.
     */
    /**
     * The effect of the one action key in each state: from idle or an ended
     * round a new wait with a drawn delay, a press while waiting is too early,
     * a press on green records the time since it turned green.
     */
    twostate predicate Acted(u: Unit, now: int)
      reads this
    {
      && listening == old(listening)
      && (old(state) in {Idle, Result, TooEarly} ==>
            && state == Waiting && timerPending
            && delayMs == MinDelayMs + u * DelaySpanMs && MinDelayMs <= delayMs < MinDelayMs + DelaySpanMs
            && times == old(times) && bestMs == old(bestMs))
      && (old(state) == Waiting ==>
            state == TooEarly && !timerPending && times == old(times) && bestMs == old(bestMs))
      && (old(state) == Ready ==>
            && state == Result && times == old(times) + [now - old(readyAt)] && bestMs == Some(Min(times))
            && timerPending == old(timerPending) && readyAt == old(readyAt))
    }

    method OnAction(u: Unit, now: int)
      requires Valid()
      requires state == Ready ==> now >= readyAt
      modifies this
      ensures Valid()
      ensures state != Ready
      ensures Acted(u, now)
    {
      match state {
        case Idle => StartWaiting(u);
        case Result => StartWaiting(u);
        case TooEarly => StartWaiting(u);
        case Waiting => TooEarlyPress();
        case Ready => RecordTime(now);
      }
    }

    /** Schedules `goGreen` after 1500 + u * 3500 ms, a delay in [1500, 5000). */
    method StartWaiting(u: Unit)
      modifies this
      ensures state == Waiting && timerPending && delayMs == MinDelayMs + u * DelaySpanMs
      ensures MinDelayMs <= delayMs < MinDelayMs + DelaySpanMs
      ensures times == old(times) && bestMs == old(bestMs) && readyAt == old(readyAt)
      ensures listening == old(listening)
    {
      state := Waiting;
      delayMs := MinDelayMs + u * DelaySpanMs;
      timerPending := true;
    }

    /** The timer callback: the only way into `Ready`. Nothing happens once the timer is cleared. */
    method GoGreen(now: int)
      modifies this
      ensures old(timerPending) ==> state == Ready && readyAt == now && !timerPending
      ensures !old(timerPending) ==> unchanged(this)
      ensures times == old(times) && bestMs == old(bestMs) && listening == old(listening)
    {
      if timerPending {
        timerPending := false;
        state := Ready;
        readyAt := now;
      }
    }

    /** Pressing while waiting: the timer is cancelled and no sample is taken. */
    method TooEarlyPress()
      modifies this
      ensures state == TooEarly && !timerPending
      ensures times == old(times) && bestMs == old(bestMs) && readyAt == old(readyAt)
      ensures listening == old(listening)
    {
      timerPending := false;
      state := TooEarly;
    }

    /** Appends exactly one latency sample and keeps `bestMs` the minimum of all samples. */
    method RecordTime(now: int)
      requires Valid()
      requires now >= readyAt
      modifies this
      ensures Valid()
      ensures state == Result
      ensures times == old(times) + [now - readyAt]
      ensures bestMs == Some(Min(times))
      ensures timerPending == old(timerPending) && listening == old(listening) && readyAt == old(readyAt)
    {
      var ms := now - readyAt;
      state := Result;
      times := times + [ms];
      assert times[..|times| - 1] == old(times);
      if bestMs.None? || ms < bestMs.value {
        bestMs := Some(ms);
      }
    }
  }

  /** Non-negative samples: the mean is a non-negative number no smaller than the best sample. */
  lemma MinAtMostMean(s: seq<int>)
    requires forall k :: 0 <= k < |s| ==> s[k] >= 0
    ensures MeanOrZero(s) >= 0
    ensures s != [] ==> Min(s) <= MeanOrZero(s)
  {
    SumNonNegative(s);
    if s != [] {
      forall i | 0 <= i < |s| ensures Min(s) <= s[i] <= Sum(s) {
        SumAtLeastEach(s, i);
      }
      MeanBetweenBounds(s, Min(s), Sum(s));
    }
  }

  lemma {:induction false} SumAtLeastEach(s: seq<int>, i: int)
    requires forall k :: 0 <= k < |s| ==> s[k] >= 0
    requires 0 <= i < |s|
    ensures s[i] <= Sum(s)
    decreases |s|
  {
    var p := s[..|s| - 1];
    SumNonNegative(p);
    if i < |s| - 1 {
      SumAtLeastEach(p, i);
    }
  }
}

=== FILE: snake.dfy ===
/**
 * The grid snake: a 24 x 13 board, a logic tick every 125 ms decoupled from
 * the render loop, buffered direction changes, food placed by rejection
 * sampling, and an automatic restart 1500 ms after each death.
 */
module Snake {
  import opened Common

  const Cols: int := 24
  const Rows: int := 13
  const TickMs: int := 125
  const RestartDelayMs: int := 1500

  /** A board cell, or a direction vector. */
  datatype Point = Point(x: int, y: int)

  const Right := Point(1, 0)

  predicate InBounds(c: Point) {
    0 <= c.x < Cols && 0 <= c.y < Rows
  }

  predicate Distinct(s: seq<Point>) {
    forall i, j :: 0 <= i < j < |s| ==> s[i] != s[j]
  }

  /** Every body cell is on the board and no cell is occupied twice. */
  predicate BodyOk(s: seq<Point>) {
    (forall i :: 0 <= i < |s| ==> InBounds(s[i])) && Distinct(s)
  }

  predicate IsDirection(d: Point) {
    d == Point(0, -1) || d == Point(0, 1) || d == Point(-1, 0) || d == Point(1, 0)
  }

  /** `nd` points exactly the opposite way from `d`. */
  predicate Reverses(nd: Point, d: Point) {
    nd.x + d.x == 0 && nd.y + d.y == 0
  }

  lemma NoDirectionReversesItself(d: Point)
    requires IsDirection(d)
    ensures !Reverses(d, d)
  {
    assert d.x != 0 || d.y != 0;
  }

  /** Three cells, head first, ending at the middle row's centre: (12,6), (11,6), (10,6). */
  function InitialBody(): (s: seq<Point>)
    ensures |s| == 3 && BodyOk(s)
  {
    var midX, midY := Cols / 2, Rows / 2;
    [Point(midX, midY), Point(midX - 1, midY), Point(midX - 2, midY)]
  }

  function Step(c: Point, d: Point): Point {
    Point(c.x + d.x, c.y + d.y)
  }

  /** The direction table of `onKeydown`, looked up with the lower-cased key name. */
  function KeyDirection(key: string): (d: Option<Point>)
    ensures d.Some? ==> IsDirection(d.value)
    ensures d.Some? <==> key in {"arrowup", "arrowdown", "arrowleft", "arrowright", "w", "s", "a", "d"}
  {
    if key == "arrowup" || key == "w" then Some(Point(0, -1))
    else if key == "arrowdown" || key == "s" then Some(Point(0, 1))
    else if key == "arrowleft" || key == "a" then Some(Point(-1, 0))
    else if key == "arrowright" || key == "d" then Some(Point(1, 0))
    else None
  }

  /** The cell of one `placeFood` attempt: `Math.floor(u * COLS)`, `Math.floor(v * ROWS)`. */
  function DrawCell(d: (Unit, Unit)): (c: Point)
    ensures InBounds(c)
  {
    Point(Draw(d.0, Cols), Draw(d.1, Rows))
  }

  /** The random stream holds an attempt that lands on a free cell. */
  predicate HasFreeDraw(body: seq<Point>, draws: seq<(Unit, Unit)>) {
    exists k :: 0 <= k < |draws| && DrawCell(draws[k]) !in body
  }

  /** The attempt the rejection loop of `placeFood` stops at: the first free one. */
  function FirstFree(body: seq<Point>, draws: seq<(Unit, Unit)>): (k: nat)
    requires HasFreeDraw(body, draws)
    ensures k < |draws| && DrawCell(draws[k]) !in body
    ensures forall j :: 0 <= j < k ==> DrawCell(draws[j]) in body
    decreases |draws|
  {
    if DrawCell(draws[0]) !in body then 0
    else
      var w :| 0 <= w < |draws| && DrawCell(draws[w]) !in body;
      assert DrawCell(draws[1..][w - 1]) !in body;
      var k := FirstFree(body, draws[1..]);
      assert forall j :: 1 <= j < k + 1 ==> draws[j] == draws[1..][j - 1];
      k + 1
  }

  /** A fully occupied board leaves no free attempt: the rejection loop would never stop. */
  lemma FullBoardHasNoFreeDraw(body: seq<Point>, draws: seq<(Unit, Unit)>)
    requires forall c :: InBounds(c) ==> c in body
    ensures !HasFreeDraw(body, draws)
  {
  }

  /** A move onto a free in-bounds cell keeps the body on the board and free of repeats. */
  lemma {:induction false} MoveKeepsBodyOk(body: seq<Point>, h: Point, grow: bool)
    requires BodyOk(body) && body != []
    requires InBounds(h) && h !in body
    ensures BodyOk([h] + (if grow then body else body[..|body| - 1]))
  {
    var rest := if grow then body else body[..|body| - 1];
    var s := [h] + rest;
    forall i, j | 0 <= i < j < |s| ensures s[i] != s[j] {
      if i == 0 {
        assert s[j] == body[j - 1];
      } else {
        assert s[i] == body[i - 1] && s[j] == body[j - 1];
      }
    }
    forall i | 0 <= i < |s| ensures InBounds(s[i]) {
      if i > 0 { assert s[i] == body[i - 1]; }
    }
  }

  /** The self-collision scan of `tick`: whether any body cell is `p`. */
  method Occupies(body: seq<Point>, p: Point) returns (hit: bool)
    ensures hit <==> p in body
  {
    var i := 0;
    while i < |body| && body[i] != p
      invariant 0 <= i <= |body|
      invariant forall j :: 0 <= j < i ==> body[j] != p
    {
      i := i + 1;
    }
    hit := i < |body|;
  }

  class SnakeGame {
    var highScore: nat
    var running: bool
    var snake: seq<Point>
    var dir: Point
    var nextDir: Point
    var score: nat
    var food: Option<Point>
    var dead: bool
    var lastTick: int
    /** The 1500 ms restart `setTimeout` is scheduled and has neither fired nor been cleared. */
    var restartPending: bool

    /**
     * The body is on the board without repeats, grows by exactly one cell
     * per point scored, the food lies on a free cell, and the buffered
     * direction never reverses the current one.
     */
    ghost predicate Valid()
      reads this`snake, this`score, this`running, this`food, this`dir, this`nextDir
    {
      && BodyOk(snake)
      && (snake != [] ==> |snake| >= 3 && score == |snake| - 3)
      && (running ==> snake != [] && food.Some?)
      && (food.Some? ==> InBounds(food.value) && food.value !in snake)
      && IsDirection(dir) && IsDirection(nextDir) && !Reverses(nextDir, dir)
    }

    constructor ()
      ensures Valid() && !running && highScore == 0 && snake == [] && !restartPending
    {
      highScore := 0;
      running := false;
      snake := [];
      dir, nextDir := Right, Right;
      score := 0;
      food := None;
      dead := false;
      lastTick := 0;
      restartPending := false;
    }

    /** The cell the head moves to at the next tick. */
    function NextHead(): Point
      reads this`snake, this`nextDir
      requires snake != []
    {
      Step(snake[0], nextDir)
    }

    /** The random stream suffices for the food the next tick may have to place. */
    predicate FoodDrawsFor(draws: seq<(Unit, Unit)>)
      reads this
    {
      snake != [] && !dead && food == Some(NextHead()) ==> HasFreeDraw([NextHead()] + snake, draws)
    }

    /** Starts a fresh run; the high score is kept and a pending restart timer is not cleared. */
    method Start(draws: seq<(Unit, Unit)>, now: int)
      requires Valid()
      requires HasFreeDraw(InitialBody(), draws)
      modifies this
      ensures Valid()
      ensures running && lastTick == now
      ensures snake == InitialBody() && score == 0 && !dead && dir == Right && nextDir == Right
      ensures food == Some(DrawCell(draws[FirstFree(InitialBody(), draws)]))
      ensures highScore == old(highScore) && restartPending == old(restartPending)
    {
      Reset(draws);
      running := true;
      lastTick := now;
    }

    /** Stops the run and its restart timer; the result is the current score, not the high score. */
    method Stop() returns (r: SessionResult)
      requires Valid()
      modifies this
      ensures Valid()
      ensures r == SnakeResult(old(score))
      ensures !running && !restartPending
      ensures snake == old(snake) && score == old(score) && highScore == old(highScore) && dead == old(dead)
      ensures food == old(food) && dir == old(dir) && nextDir == old(nextDir) && lastTick == old(lastTick)
    {
      running := false;
      restartPending := false;
      r := SnakeResult(score);
    }

    /** The fresh board: three cells heading right, score 0, food on a free cell. */
    method Reset(draws: seq<(Unit, Unit)>)
      requires Valid()
      requires HasFreeDraw(InitialBody(), draws)
      modifies this
      ensures Valid()
      ensures snake == InitialBody() && dir == Right && nextDir == Right && score == 0 && !dead
      ensures food == Some(DrawCell(draws[FirstFree(InitialBody(), draws)]))
      ensures highScore == old(highScore) && running == old(running)
      ensures restartPending == old(restartPending) && lastTick == old(lastTick)
    {
      snake := InitialBody();
      dir, nextDir := Right, Right;
      score := 0;
      food := None;
      dead := false;
      PlaceFood(draws);
    }

    /** The rejection loop: draws cells until one is off the body. */
    method PlaceFood(draws: seq<(Unit, Unit)>)
      requires HasFreeDraw(snake, draws)
      modifies this`food
      ensures food == Some(DrawCell(draws[FirstFree(snake, draws)]))
      ensures food.value !in snake && InBounds(food.value)
    {
      ghost var first := FirstFree(snake, draws);
      var k := 0;
      var pos := DrawCell(draws[0]);
      while pos in snake
        invariant 0 <= k <= first
        invariant pos == DrawCell(draws[k])
        decreases first - k
      {
        k := k + 1;
        pos := DrawCell(draws[k]);
      }
      food := Some(pos);
    }

    /** A mapped key that does not reverse the current heading becomes the buffered direction. */
    method OnKeydown(key: string)
      requires Valid()
      modifies this`nextDir
      ensures Valid()
      ensures var nd := KeyDirection(AsciiLower(key));
        if running && nd.Some? && !Reverses(nd.value, dir) then nextDir == nd.value
        else nextDir == old(nextDir)
    {
      if running {
        var nd := KeyDirection(AsciiLower(key));
        if nd.Some? && (nd.value.x + dir.x != 0 || nd.value.y + dir.y != 0) {
          nextDir := nd.value;
        }
      }
    }

    /** The render-frame callback: a logic tick happens only once 125 ms have passed. */
    method Loop(now: int, draws: seq<(Unit, Unit)>)
      requires Valid()
      requires running && now - lastTick >= TickMs ==> FoodDrawsFor(draws)
      modifies this
      ensures Valid()
      ensures !(old(running) && now - old(lastTick) >= TickMs) ==> unchanged(this)
      ensures old(running) && now - old(lastTick) >= TickMs ==> lastTick == now
      ensures old(running) && now - old(lastTick) >= TickMs && !old(dead) ==> Ticked(draws)
      ensures old(running) && now - old(lastTick) >= TickMs && old(dead) ==>
        && dead && snake == old(snake) && score == old(score) && food == old(food)
        && dir == old(dir) && nextDir == old(nextDir)
        && highScore == old(highScore) && restartPending == old(restartPending)
      ensures highScore >= old(highScore) && running == old(running)
    {
      if !running {
        return;
      }
      if now - lastTick >= TickMs {
        lastTick := now;
        Tick(draws);
      }
    }

    /**
     * One logic step. A dead snake stays put. Otherwise the buffered
     * direction is applied; leaving the board or hitting any body cell
     * (the tail included) kills the snake without moving it; eating grows
     * the body by one and scores a point; any other move keeps the length.
     */
    /**
     * The effect of one step on a live snake: the queued direction is taken;
     * a wall or the body ends the run and updates the high score; otherwise
     * the head advances, growing and re-placing the food when it eats.
     */
    twostate predicate Ticked(draws: seq<(Unit, Unit)>)
      requires old(snake) != []
      reads this
    {
      var head := old(NextHead());
      && dir == old(nextDir) && nextDir == old(nextDir)
      && (!InBounds(head) || head in old(snake) ==>
            && dead && snake == old(snake) && score == old(score) && food == old(food)
            && highScore == Max(old(highScore), old(score)) && restartPending)
      && (InBounds(head) && head !in old(snake) ==>
            && !dead && highScore == old(highScore) && restartPending == old(restartPending)
            && (if old(food) == Some(head) then
                  && snake == [head] + old(snake) && score == old(score) + 1
                  && HasFreeDraw(snake, draws) && food == Some(DrawCell(draws[FirstFree(snake, draws)]))
                else
                  && snake == [head] + old(snake)[..|old(snake)| - 1] && score == old(score)
                  && food == old(food)))
    }

    method Tick(draws: seq<(Unit, Unit)>)
      requires Valid() && snake != []
      requires FoodDrawsFor(draws)
      modifies this
      ensures Valid()
      ensures old(dead) ==> unchanged(this)
      ensures running == old(running) && lastTick == old(lastTick)
      ensures !old(dead) ==> Ticked(draws)
    {
      if dead {
        return;
      }
      dir := nextDir;
      NoDirectionReversesItself(dir);
      var head := snake[0];
      var p := Point(head.x + dir.x, head.y + dir.y);
      if p.x < 0 || p.x >= Cols || p.y < 0 || p.y >= Rows {
        Die();
        return;
      }
      var hit := Occupies(snake, p);
      if hit {
        Die();
        return;
      }
      Advance(p, draws);
    }

    /** The head moves onto the free cell `p`: the body grows on food and keeps its length otherwise. */
    method Advance(p: Point, draws: seq<(Unit, Unit)>)
      requires BodyOk(snake) && |snake| >= 3 && score == |snake| - 3
      requires InBounds(p) && p !in snake
      requires food.Some? ==> InBounds(food.value) && food.value !in snake
      requires food == Some(p) ==> HasFreeDraw([p] + snake, draws)
      modifies this`snake, this`score, this`food
      ensures BodyOk(snake) && |snake| >= 3 && score == |snake| - 3
      ensures food.Some? ==> InBounds(food.value) && food.value !in snake
      ensures old(food) == Some(p) ==>
        && snake == [p] + old(snake) && score == old(score) + 1
        && food == Some(DrawCell(draws[FirstFree(snake, draws)]))
      ensures old(food) != Some(p) ==>
        snake == [p] + old(snake)[..|old(snake)| - 1] && score == old(score) && food == old(food)
    {
      var body := snake;
      MoveKeepsBodyOk(body, p, true);
      MoveKeepsBodyOk(body, p, false);
      snake := [p] + snake;
      if food.Some? && p == food.value {
        score := score + 1;
        PlaceFood(draws);
      } else {
        snake := snake[..|snake| - 1];
        assert snake == [p] + body[..|body| - 1];
        assert forall c :: c in snake ==> c == p || c in body;
      }
    }

    /** The run ends: the high score absorbs the score and the restart timer is scheduled. */
    method Die()
      modifies this`dead, this`highScore, this`restartPending
      ensures dead && restartPending && highScore == Max(old(highScore), score)
    {
      dead := true;
      if score > highScore {
        highScore := score;
      }
      restartPending := true;
    }

    /** The restart timer's callback: a fresh board while the game is still running. */
    method RestartFire(draws: seq<(Unit, Unit)>)
      requires Valid()
      requires HasFreeDraw(InitialBody(), draws)
      modifies this
      ensures Valid()
      ensures !old(restartPending) ==> unchanged(this)
      ensures old(restartPending) && !running ==>
        && !restartPending && snake == old(snake) && score == old(score) && dead == old(dead)
        && food == old(food) && dir == old(dir) && nextDir == old(nextDir)
      ensures old(restartPending) && running ==>
        && !restartPending && snake == InitialBody() && score == 0 && !dead
        && dir == Right && nextDir == Right
        && food == Some(DrawCell(draws[FirstFree(InitialBody(), draws)]))
      ensures highScore == old(highScore) && running == old(running)
    {
      if restartPending {
        restartPending := false;
        if running {
          Reset(draws);
        }
      }
    }
  }
}

=== FILE: stats.dfy ===
/**
 * The statistics aggregator: one running aggregate per registered game,
 * a memoised `load` that merges persisted entries into the aggregates, and
 * `record`, which folds one finished session into its game's aggregate.
 */
module Stats {
  import opened Common

  datatype TypingStats = TypingStats(totalTests: nat, bestWpm: nat, avgWpm: nat)
  datatype MathStats = MathStats(totalProblems: nat, correct: nat, bestStreak: nat)
  datatype SnakeStats = SnakeStats(gamesPlayed: nat, highScore: nat)
  datatype ReactionStats = ReactionStats(attempts: nat, bestMs: Option<nat>, avgMs: Option<nat>)

  /** The keys of the aggregate object, in declaration order. */
  const StatKeys: seq<string> := ["typing", "math", "snake", "reaction"]

  const DefaultTyping := TypingStats(0, 0, 0)
  const DefaultMath := MathStats(0, 0, 0)
  const DefaultSnake := SnakeStats(0, 0)
  const DefaultReaction := ReactionStats(0, None, None)

  /** Which result shape `record` reads for a game id it knows. */
  predicate Fits(gameId: string, result: SessionResult) {
    && (gameId == "typing" ==> result.TypingResult?)
    && (gameId == "math" ==> result.MathResult?)
    && (gameId == "snake" ==> result.SnakeResult?)
    && (gameId == "reaction" ==> result.ReactionResult?)
  }

  // ---------------------------------------------------------------------------
  // Per-game reduction rules of `record`

  /**
   * One typing session: the test count goes up by one, the best WPM is the
   * larger of the two, and the average is the rounded mean in which the old
   * average stands for the earlier tests.
   */
  function RecordTyping(s: TypingStats, wpm: nat): (t: TypingStats)
    ensures t.totalTests == s.totalTests + 1
    ensures t.bestWpm >= s.bestWpm && t.bestWpm >= wpm
    ensures t.bestWpm == s.bestWpm || t.bestWpm == wpm
    ensures var n := t.totalTests;
      n * (2 * t.avgWpm - 1) <= 2 * (s.avgWpm * s.totalTests + wpm) < n * (2 * t.avgWpm + 1)
  {
    var n := s.totalTests + 1;
    var best := if wpm > s.bestWpm then wpm else s.bestWpm;
    var sum := s.avgWpm * s.totalTests + wpm;
    RoundDivNonNegative(sum, n);
    TypingStats(n, best, RoundDiv(sum, n))
  }

  /** Totals add up, the best streak is the larger of the two. */
  function RecordMath(s: MathStats, correct: nat, total: nat, streak: nat): (t: MathStats)
    ensures t.totalProblems == s.totalProblems + total
    ensures t.correct == s.correct + correct
    ensures t.bestStreak >= s.bestStreak && t.bestStreak >= streak
    ensures t.bestStreak == s.bestStreak || t.bestStreak == streak
    ensures s.correct <= s.totalProblems && correct <= total ==> t.correct <= t.totalProblems
  {
    MathStats(s.totalProblems + total, s.correct + correct,
              if streak > s.bestStreak then streak else s.bestStreak)
  }

  /** One more game played; the high score never decreases. */
  function RecordSnake(s: SnakeStats, score: nat): (t: SnakeStats)
    ensures t.gamesPlayed == s.gamesPlayed + 1
    ensures t.highScore >= s.highScore && t.highScore >= score
    ensures t.highScore == s.highScore || t.highScore == score
  {
    SnakeStats(s.gamesPlayed + 1, if score > s.highScore then score else s.highScore)
  }

  /**
   * A session whose best time is 0 (no sample) is ignored. Otherwise one more
   * attempt, the best time is the minimum, and the average is the first time
   * itself or the rounded running mean.
   */
  function RecordReaction(s: ReactionStats, ms: nat): (t: ReactionStats)
    ensures ms == 0 ==> t == s
    ensures ms > 0 ==> t.attempts == s.attempts + 1
    ensures ms > 0 ==> t.bestMs.Some? && t.bestMs.value <= ms
    ensures ms > 0 && s.bestMs.Some? ==> t.bestMs.value <= s.bestMs.value
    ensures ms > 0 ==> t.bestMs == Some(ms) || t.bestMs == s.bestMs
    ensures ms > 0 && s.avgMs.None? ==> t.avgMs == Some(ms)
    ensures ms > 0 && s.avgMs.Some? ==>
      && t.avgMs.Some?
      && var n := t.attempts;
         n * (2 * t.avgMs.value - 1) <= 2 * (s.avgMs.value * s.attempts + ms) < n * (2 * t.avgMs.value + 1)
  {
    if ms <= 0 then s
    else
      var n := s.attempts + 1;
      var best := if s.bestMs.None? || ms < s.bestMs.value then ms else s.bestMs.value;
      if s.avgMs.None? then ReactionStats(n, Some(best), Some(ms))
      else
        var sum := s.avgMs.value * s.attempts + ms;
        RoundDivNonNegative(sum, n);
        ReactionStats(n, Some(best), Some(RoundDiv(sum, n)))
  }

  // ---------------------------------------------------------------------------
  // Properties of the reduction rules over many sessions

  function RecordScores(s: SnakeStats, scores: seq<nat>): SnakeStats
    decreases |scores|
  {
    if scores == [] then s else RecordScores(RecordSnake(s, scores[0]), scores[1..])
  }

  /**
   * After any number of snake sessions, the games count has gone up by their
   * number and the high score is the largest of the old high score and every
   * session's score.
   */
  lemma {:induction false} RecordScoresHighScore(s: SnakeStats, scores: seq<nat>)
    ensures RecordScores(s, scores).gamesPlayed == s.gamesPlayed + |scores|
    ensures RecordScores(s, scores).highScore >= s.highScore
    ensures forall i :: 0 <= i < |scores| ==> RecordScores(s, scores).highScore >= scores[i]
    ensures RecordScores(s, scores).highScore == s.highScore ||
            exists i :: 0 <= i < |scores| && RecordScores(s, scores).highScore == scores[i]
    decreases |scores|
  {
    if scores != [] {
      var t := RecordSnake(s, scores[0]);
      RecordScoresHighScore(t, scores[1..]);
      var h := RecordScores(s, scores).highScore;
      assert RecordScores(s, scores) == RecordScores(t, scores[1..]);
      forall i | 0 <= i < |scores| ensures h >= scores[i] {
        if i > 0 { assert scores[i] == scores[1..][i - 1]; }
      }
      if h != s.highScore && h != t.highScore {
        var j :| 0 <= j < |scores[1..]| && h == scores[1..][j];
        assert h == scores[j + 1];
      }
    }
  }

  function RecordReactions(s: ReactionStats, samples: seq<nat>): ReactionStats
    decreases |samples|
  {
    if samples == [] then s else RecordReactions(RecordReaction(s, samples[0]), samples[1..])
  }

  /**
   * After any number of reaction sessions, the best time lies at or below every
   * non-zero session best, and stays at or below the old best.
   */
  lemma {:induction false} RecordReactionsBest(s: ReactionStats, samples: seq<nat>)
    ensures var t := RecordReactions(s, samples);
      && (s.bestMs.Some? ==> t.bestMs.Some? && t.bestMs.value <= s.bestMs.value)
      && forall i :: 0 <= i < |samples| && samples[i] > 0 ==>
           t.bestMs.Some? && t.bestMs.value <= samples[i]
    decreases |samples|
  {
    if samples != [] {
      var u := RecordReaction(s, samples[0]);
      RecordReactionsBest(u, samples[1..]);
      var t := RecordReactions(s, samples);
      assert t == RecordReactions(u, samples[1..]);
      forall i | 0 <= i < |samples| && samples[i] > 0
        ensures t.bestMs.Some? && t.bestMs.value <= samples[i]
      {
        if i > 0 { assert samples[i] == samples[1..][i - 1]; }
      }
    }
  }

  /** Typing averages stay within the range of the old average and the new WPM. */
  lemma TypingAverageBetween(s: TypingStats, wpm: nat, lo: int, hi: int)
    requires lo <= s.avgWpm <= hi && lo <= wpm <= hi
    ensures lo <= RecordTyping(s, wpm).avgWpm <= hi
  {
    WeightedSumBetween(s.avgWpm, s.totalTests, wpm, lo, hi);
    RoundDivBetween(s.avgWpm * s.totalTests + wpm, s.totalTests + 1, lo, hi);
  }

  lemma WeightedSumBetween(a: int, m: nat, x: int, lo: int, hi: int)
    requires lo <= a <= hi && lo <= x <= hi
    ensures lo * (m + 1) <= a * m + x <= hi * (m + 1)
  {
    if m > 0 {
      MulMono(m, lo, a);
      MulMono(m, a, hi);
      assert m * lo == lo * m && m * a == a * m && m * hi == hi * m;
      assert lo * (m + 1) == lo * m + lo;
      assert hi * (m + 1) == hi * m + hi;
    }
  }

  // ---------------------------------------------------------------------------
  // Persisted form

  /** A JSON value stored for one aggregate field (this program only writes these). */
  datatype Json = Null | Num(n: nat)

  /** What `parsed[key]` holds: a falsy value, or an object of fields. */
  datatype Entry = Falsy | Object(fields: map<string, Json>)

  function EntryAt(parsed: map<string, Entry>, key: string): Entry {
    if key in parsed then parsed[key] else Falsy
  }

  /** A counter field after `Object.assign`: replaced when the entry carries a number. */
  function CounterField(fields: map<string, Json>, name: string, old_: nat): nat {
    if name in fields && fields[name].Num? then fields[name].n else old_
  }

  /** A nullable field after `Object.assign`: replaced when the entry carries it. */
  function NullableField(fields: map<string, Json>, name: string, old_: Option<nat>): Option<nat> {
    if name !in fields then old_
    else match fields[name]
      case Null => None
      case Num(n) => Some(n)
  }

  function MergeTyping(s: TypingStats, e: Entry): TypingStats {
    if e.Falsy? then s
    else TypingStats(CounterField(e.fields, "totalTests", s.totalTests),
                     CounterField(e.fields, "bestWpm", s.bestWpm),
                     CounterField(e.fields, "avgWpm", s.avgWpm))
  }

  function MergeMath(s: MathStats, e: Entry): MathStats {
    if e.Falsy? then s
    else MathStats(CounterField(e.fields, "totalProblems", s.totalProblems),
                   CounterField(e.fields, "correct", s.correct),
                   CounterField(e.fields, "bestStreak", s.bestStreak))
  }

  function MergeSnake(s: SnakeStats, e: Entry): SnakeStats {
    if e.Falsy? then s
    else SnakeStats(CounterField(e.fields, "gamesPlayed", s.gamesPlayed),
                    CounterField(e.fields, "highScore", s.highScore))
  }

  function MergeReaction(s: ReactionStats, e: Entry): ReactionStats {
    if e.Falsy? then s
    else ReactionStats(CounterField(e.fields, "attempts", s.attempts),
                       NullableField(e.fields, "bestMs", s.bestMs),
                       NullableField(e.fields, "avgMs", s.avgMs))
  }

  function JsonOf(v: Option<nat>): Json {
    if v.Some? then Num(v.value) else Null
  }

  /** What `save` hands to the persistence service: every aggregate, field by field. */
  function Serialize(typing: TypingStats, math: MathStats, snake: SnakeStats, reaction: ReactionStats)
    : (m: map<string, Entry>)
    ensures m.Keys == set k | k in StatKeys
  {
    map[
      "typing" := Object(map["totalTests" := Num(typing.totalTests), "bestWpm" := Num(typing.bestWpm),
                             "avgWpm" := Num(typing.avgWpm)]),
      "math" := Object(map["totalProblems" := Num(math.totalProblems), "correct" := Num(math.correct),
                           "bestStreak" := Num(math.bestStreak)]),
      "snake" := Object(map["gamesPlayed" := Num(snake.gamesPlayed), "highScore" := Num(snake.highScore)]),
      "reaction" := Object(map["attempts" := Num(reaction.attempts), "bestMs" := JsonOf(reaction.bestMs),
                               "avgMs" := JsonOf(reaction.avgMs)])
    ]
  }

  /** Merging a saved snapshot into any aggregates gives back exactly the saved aggregates. */
  lemma SaveLoadRoundTrip(typing: TypingStats, math: MathStats, snake: SnakeStats, reaction: ReactionStats,
                          t0: TypingStats, m0: MathStats, s0: SnakeStats, r0: ReactionStats)
    ensures var p := Serialize(typing, math, snake, reaction);
      && MergeTyping(t0, EntryAt(p, "typing")) == typing
      && MergeMath(m0, EntryAt(p, "math")) == math
      && MergeSnake(s0, EntryAt(p, "snake")) == snake
      && MergeReaction(r0, EntryAt(p, "reaction")) == reaction
  {
  }

  /** An entry with none of an aggregate's fields leaves that aggregate as it was, for each of the four. */
  lemma MergeIgnoresForeignFields(t: TypingStats, m: MathStats, s: SnakeStats, r: ReactionStats,
                                  fields: map<string, Json>)
    ensures "totalTests" !in fields && "bestWpm" !in fields && "avgWpm" !in fields ==>
      MergeTyping(t, Object(fields)) == t
    ensures "totalProblems" !in fields && "correct" !in fields && "bestStreak" !in fields ==>
      MergeMath(m, Object(fields)) == m
    ensures "gamesPlayed" !in fields && "highScore" !in fields ==>
      MergeSnake(s, Object(fields)) == s
    ensures "attempts" !in fields && "bestMs" !in fields && "avgMs" !in fields ==>
      MergeReaction(r, Object(fields)) == r
  {
  }

  // ---------------------------------------------------------------------------
  // The aggregator object

  class StatsManager {
    var typing: TypingStats
    var math: MathStats
    var snake: SnakeStats
    var reaction: ReactionStats
    var loaded: bool

    constructor ()
      ensures typing == DefaultTyping && math == DefaultMath
      ensures snake == DefaultSnake && reaction == DefaultReaction
      ensures !loaded
    {
      typing := DefaultTyping;
      math := DefaultMath;
      snake := DefaultSnake;
      reaction := DefaultReaction;
      loaded := false;
    }

    /**
     * `load`: the first call merges every known key whose persisted entry is
     * truthy into its aggregate (`None` stands for any failure: the service
     * erred, the text did not parse, or it was not an object) and marks the
     * aggregates loaded; later calls do nothing.
     */
    /**
     * What `load` leaves behind: loaded; a second load changes nothing; the
     * first keeps the defaults when the host failed and otherwise merges each
     * key's persisted entry into its aggregate.
     */
    twostate predicate Loaded(fetched: Option<map<string, Entry>>)
      reads this
    {
      && loaded
      && (old(loaded) ==> unchanged(this))
      && (!old(loaded) && fetched.None? ==>
            typing == old(typing) && math == old(math) && snake == old(snake) && reaction == old(reaction))
      && (!old(loaded) && fetched.Some? ==>
            && typing == MergeTyping(old(typing), EntryAt(fetched.value, "typing"))
            && math == MergeMath(old(math), EntryAt(fetched.value, "math"))
            && snake == MergeSnake(old(snake), EntryAt(fetched.value, "snake"))
            && reaction == MergeReaction(old(reaction), EntryAt(fetched.value, "reaction")))
    }

    method Load(fetched: Option<map<string, Entry>>)
      modifies this
      ensures Loaded(fetched)
    {
      if loaded {
        return;
      }
      if fetched.Some? {
        var parsed := fetched.value;
        for i := 0 to |StatKeys|
          invariant typing == if i > 0 then MergeTyping(old(typing), EntryAt(parsed, "typing")) else old(typing)
          invariant math == if i > 1 then MergeMath(old(math), EntryAt(parsed, "math")) else old(math)
          invariant snake == if i > 2 then MergeSnake(old(snake), EntryAt(parsed, "snake")) else old(snake)
          invariant reaction == if i > 3 then MergeReaction(old(reaction), EntryAt(parsed, "reaction")) else old(reaction)
          invariant loaded == old(loaded)
        {
          var key := StatKeys[i];
          var entry := EntryAt(parsed, key);
          if entry.Object? {
            if key == "typing" {
              typing := MergeTyping(typing, entry);
            } else if key == "math" {
              math := MergeMath(math, entry);
            } else if key == "snake" {
              snake := MergeSnake(snake, entry);
            } else {
              reaction := MergeReaction(reaction, entry);
            }
          }
        }
      }
      loaded := true;
    }

    /** `save`: the snapshot handed to the persistence service. */
    function Snapshot(): (m: map<string, Entry>)
      reads this
      ensures m.Keys == set k | k in StatKeys
    {
      Serialize(typing, math, snake, reaction)
    }

    /**
     * `record`: folds one session result into the aggregate of its game; an id
     * with no aggregate changes nothing, and every other aggregate is untouched.
     */
    method Record(gameId: string, result: SessionResult)
      requires Fits(gameId, result)
      modifies this
      ensures loaded == old(loaded)
      ensures gameId !in StatKeys ==> unchanged(this)
      ensures typing == if gameId == "typing" then RecordTyping(old(typing), result.wpm) else old(typing)
      ensures math == if gameId == "math"
        then RecordMath(old(math), result.correct, result.total, result.streak) else old(math)
      ensures snake == if gameId == "snake" then RecordSnake(old(snake), result.score) else old(snake)
      ensures reaction == if gameId == "reaction" then RecordReaction(old(reaction), result.ms) else old(reaction)
    {
      if gameId == "typing" {
        typing := RecordTyping(typing, result.wpm);
      } else if gameId == "math" {
        math := RecordMath(math, result.correct, result.total, result.streak);
      } else if gameId == "snake" {
        snake := RecordSnake(snake, result.score);
      } else if gameId == "reaction" {
        reaction := RecordReaction(reaction, result.ms);
      }
    }
  }
}

=== FILE: stroop.dfy ===
/**
 * The colour-word game: a colour name is shown in a different ink colour,
 * and the player presses the key of the ink (r, b, g or y). Each answer is
 * followed by 600 ms of feedback before the next word.
 */
module Stroop {
  import opened Common

  datatype Color = Red | Blue | Green | Yellow

  const FeedbackMs: nat := 600

  /** The palette, in its order. */
  const Colors: seq<Color> := [Red, Blue, Green, Yellow]

  /** The colour picked by `colors[Math.floor(u * colors.length)]`. */
  function ColorOf(u: Unit): Color {
    Colors[Draw(u, |Colors|)]
  }

  lemma ColorOfCovers(c: Color)
    ensures exists u: Unit :: ColorOf(u) == c
  {
    var k := if c == Red then 0 else if c == Blue then 1 else if c == Green then 2 else 3;
    DrawHits(k, 4);
    assert ColorOf(k as real / 4.0) == c;
  }

  /** The answer key of each colour, looked up with the lower-cased key name. */
  function KeyColor(key: string): (c: Option<Color>)
    ensures c.Some? <==> key in {"r", "b", "g", "y"}
  {
    if key == "r" then Some(Red)
    else if key == "b" then Some(Blue)
    else if key == "g" then Some(Green)
    else if key == "y" then Some(Yellow)
    else None
  }

  /** The random stream holds a draw whose colour differs from the word's. */
  predicate HasOther(word: Color, draws: seq<Unit>) {
    exists k :: 0 <= k < |draws| && ColorOf(draws[k]) != word
  }

  /** The draw the rejection loop of `nextRound` stops at: the first of another colour. */
  function FirstOther(word: Color, draws: seq<Unit>): (k: nat)
    requires HasOther(word, draws)
    ensures k < |draws| && ColorOf(draws[k]) != word
    ensures forall j :: 0 <= j < k ==> ColorOf(draws[j]) == word
    decreases |draws|
  {
    if ColorOf(draws[0]) != word then 0
    else
      var w :| 0 <= w < |draws| && ColorOf(draws[w]) != word;
      assert ColorOf(draws[1..][w - 1]) != word;
      var k := FirstOther(word, draws[1..]);
      assert forall j :: 1 <= j < k + 1 ==> draws[j] == draws[1..][j - 1];
      k + 1
  }

  class StroopGame {
    var correct: nat
    var total: nat
    var streak: nat
    var bestStreak: nat
    /** The colour the word names. */
    var wordColor: Option<Color>
    /** The ink the word is drawn in: the right answer. */
    var displayColor: Option<Color>
    /** Feedback is showing; answers are ignored. */
    var waiting: bool
    /** The feedback `setTimeout` is scheduled and has neither fired nor been cleared. */
    var timerPending: bool
    /** The keydown listener is attached (between `start()` and `stop()`). */
    var listening: bool

    /**
     * Right answers never exceed answers, and the streak never exceeds the
     * best streak; while the game runs a word is shown in another colour's
     * ink, and feedback never shows without its timer pending.
     */
    ghost predicate Valid()
      reads this
    {
      && correct <= total
      && streak <= bestStreak <= correct
      && (listening ==> displayColor.Some? && wordColor.Some? && displayColor != wordColor)
      && (listening && waiting ==> timerPending)
    }

    constructor ()
      ensures Valid() && !listening && !timerPending && displayColor == None
    {
      correct, total, streak, bestStreak := 0, 0, 0, 0;
      wordColor, displayColor := None, None;
      waiting := false;
      timerPending := false;
      listening := false;
    }

    /** All counters back at 0 and the first word shown. A pending feedback timer is not cleared. */
    method Start(wordDraw: Unit, draws: seq<Unit>)
      requires HasOther(ColorOf(wordDraw), draws)
      modifies this
      ensures Valid() && listening && !waiting && timerPending == old(timerPending)
      ensures correct == 0 && total == 0 && streak == 0 && bestStreak == 0
      ensures wordColor == Some(ColorOf(wordDraw))
      ensures displayColor == Some(ColorOf(draws[FirstOther(ColorOf(wordDraw), draws)]))
    {
      correct, total, streak, bestStreak := 0, 0, 0, 0;
      waiting := false;
      listening := true;
      NextRound(wordDraw, draws);
    }

    /** Detaches the listener and clears the feedback timer; the streak reported is the best one. */
    method Stop() returns (r: SessionResult)
      requires Valid()
      modifies this
      ensures Valid() && !listening && !timerPending
      ensures r == StroopResult(old(correct), old(total), old(bestStreak))
      ensures correct == old(correct) && total == old(total) && bestStreak == old(bestStreak)
      ensures streak == old(streak) && waiting == old(waiting)
      ensures wordColor == old(wordColor) && displayColor == old(displayColor)
    {
      listening := false;
      timerPending := false;
      r := StroopResult(correct, total, bestStreak);
    }

    /** A new word, drawn in an ink of a different colour; answers are accepted again. */
    method NextRound(wordDraw: Unit, draws: seq<Unit>)
      requires HasOther(ColorOf(wordDraw), draws)
      modifies this`waiting, this`wordColor, this`displayColor
      ensures !waiting
      ensures wordColor == Some(ColorOf(wordDraw))
      ensures displayColor == Some(ColorOf(draws[FirstOther(ColorOf(wordDraw), draws)]))
      ensures displayColor != wordColor
    {
      waiting := false;
      var word := Colors[Draw(wordDraw, |Colors|)];
      ghost var first := FirstOther(word, draws);
      var k := 0;
      var display := Colors[Draw(draws[0], |Colors|)];
      while display == word
        invariant 0 <= k <= first
        invariant display == ColorOf(draws[k])
        decreases first - k
      {
        k := k + 1;
        display := Colors[Draw(draws[k], |Colors|)];
      }
      wordColor := Some(word);
      displayColor := Some(display);
    }

    /**
     * An answer key while no feedback shows: one more answer, a right one
     * when it names the ink, and feedback until the timer fires. Other
     * keys, and any key during feedback, are ignored.
     */
    method OnKeydown(key: string)
      requires Valid()
      modifies this
      ensures Valid()
      ensures var c := KeyColor(AsciiLower(key));
        && (!(old(listening) && !old(waiting) && c.Some?) ==> unchanged(this))
        && (old(listening) && !old(waiting) && c.Some? ==>
              && total == old(total) + 1
              && waiting && timerPending && listening
              && displayColor == old(displayColor) && wordColor == old(wordColor)
              && (c == old(displayColor) ==>
                    correct == old(correct) + 1 && streak == old(streak) + 1
                    && bestStreak == Max(old(bestStreak), streak))
              && (c != old(displayColor) ==>
                    correct == old(correct) && streak == 0 && bestStreak == old(bestStreak)))
    {
      if !listening || waiting {
        return;
      }
      var pressed := KeyColor(AsciiLower(key));
      if pressed.None? {
        return;
      }
      total := total + 1;
      if Some(pressed.value) == displayColor {
        correct := correct + 1;
        streak := streak + 1;
        if streak > bestStreak {
          bestStreak := streak;
        }
      } else {
        streak := 0;
      }
      waiting := true;
      timerPending := true;
    }

    /** The feedback timer's callback: the next word. Nothing happens once the timer is cleared. */
    method FeedbackFire(wordDraw: Unit, draws: seq<Unit>)
      requires Valid()
      requires timerPending ==> HasOther(ColorOf(wordDraw), draws)
      modifies this
      ensures Valid()
      ensures !old(timerPending) ==> unchanged(this)
      ensures old(timerPending) ==>
        && !timerPending && !waiting && wordColor == Some(ColorOf(wordDraw))
        && displayColor == Some(ColorOf(draws[FirstOther(ColorOf(wordDraw), draws)]))
      ensures correct == old(correct) && total == old(total) && streak == old(streak)
      ensures bestStreak == old(bestStreak) && listening == old(listening)
    {
      if timerPending {
        timerPending := false;
        NextRound(wordDraw, draws);
      }
    }
  }
}

=== FILE: typing.dfy ===
/**
 * The typing test: a sentence of 5 to 12 words shuffled from a corpus,
 * submitted one word at a time with Space or Enter, scored in words per
 * minute and word accuracy, and replaced by a fresh sentence on Space or
 * Enter once it is done.
 */
module Typing {
  import opened Common

  /** One minute, in milliseconds. */
  const MinuteMs: real := 60000.0
  /** Below this many minutes of typing the speed is reported as 0. */
  const MinMinutes: real := 0.01
  /** A key within this many milliseconds of finishing does not start the next sentence. */
  const DebounceMs: int := 100

  /** Fisher-Yates on a copy: the words come back in another order, none lost or added. */
  method Shuffle(arr: seq<string>, draws: seq<Unit>) returns (r: seq<string>)
    requires |draws| >= |arr| - 1
    ensures multiset(r) == multiset(arr)
    ensures |r| == |arr|
  {
    var a := new string[|arr|](k requires 0 <= k < |arr| => arr[k]);
    assert a[..] == arr;
    var i := |arr| - 1;
    while i > 0
      invariant -1 <= i < |arr|
      invariant a.Length == |arr|
      invariant multiset(a[..]) == multiset(arr)
    {
      var j := Draw(draws[|arr| - 1 - i], i + 1);
      a[i], a[j] := a[j], a[i];
      i := i - 1;
    }
    r := a[..];
    assert |r| == |multiset(r)| == |multiset(arr)| == |arr|;
  }

  /** The words of a fresh sentence: the first 5 to 12 words of a shuffle of the corpus, all of it if shorter. */
  method Sentence(corpus: seq<string>, lenDraw: Unit, shuffleDraws: seq<Unit>) returns (ws: seq<string>)
    requires |shuffleDraws| >= |corpus| - 1
    ensures |ws| == if |corpus| < SentenceLength(lenDraw) then |corpus| else SentenceLength(lenDraw)
    ensures multiset(ws) <= multiset(corpus)
  {
    var len := SentenceLength(lenDraw);
    var shuffled := Shuffle(corpus, shuffleDraws);
    var n := if |shuffled| < len then |shuffled| else len;
    PrefixSubMultiset(shuffled, n);
    ws := shuffled[..n];
  }

  /** `5 + Math.floor(u * 8)`: a sentence length from 5 to 12, each reachable. */
  function SentenceLength(u: Unit): (n: nat)
    ensures 5 <= n <= 12
  {
    5 + Draw(u, 8)
  }

  lemma SentenceLengthCovers(n: nat)
    requires 5 <= n <= 12
    ensures SentenceLength((n - 5) as real / 8.0) == n
  {
    DrawHits(n - 5, 8);
  }

  /** The number of words marked right. */
  function CountTrue(results: seq<bool>): (n: nat)
    ensures n <= |results|
  {
    if results == [] then 0
    else CountTrue(results[..|results| - 1]) + (if results[|results| - 1] then 1 else 0)
  }

  /** Characters credited for the marked words: each right word counts its length plus one space. */
  function CorrectChars(words: seq<string>, results: seq<bool>): nat
    requires |results| <= |words|
  {
    if results == [] then 0
    else
      var k := |results| - 1;
      CorrectChars(words, results[..k]) + (if results[k] then |words[k]| + 1 else 0)
  }

  /** With every word right, the credited characters are the sentence's characters plus one space per word. */
  lemma {:induction false} AllRightCredit(words: seq<string>, results: seq<bool>)
    requires |results| <= |words|
    requires forall i :: 0 <= i < |results| ==> results[i]
    ensures CorrectChars(words, results) == TotalChars(words[..|results|]) + |results|
    ensures CountTrue(results) == |results|
    decreases |results|
  {
    if results != [] {
      var k := |results| - 1;
      AllRightCredit(words, results[..k]);
      assert words[..|results|][..k] == words[..k];
    }
  }

  /** Marking one more position adds that position's credit and nothing else. */
  lemma AppendMark(words: seq<string>, results: seq<bool>, right: bool)
    requires |results| < |words|
    ensures CountTrue(results + [right]) == CountTrue(results) + (if right then 1 else 0)
    ensures CorrectChars(words, results + [right])
            == CorrectChars(words, results) + (if right then |words[|results|]| + 1 else 0)
  {
    assert (results + [right])[..|results|] == results;
  }

  lemma PrefixSubMultiset(s: seq<string>, n: nat)
    requires n <= |s|
    ensures multiset(s[..n]) <= multiset(s)
  {
    assert s == s[..n] + s[n..];
  }

  function TotalChars(words: seq<string>): nat {
    if words == [] then 0 else TotalChars(words[..|words| - 1]) + |words[|words| - 1]|
  }

  /**
   * `calcWpm`: five credited characters make a word. The speed is 0 without
   * a (non-zero) start time, without credited characters, or before
   * 0.01 minutes have passed; otherwise the end of the measurement is the
   * end time once the sentence is done and `now` before.
   */
  function CalcWpm(startTime: Option<int>, endTime: Option<int>, chars: nat, now: int): (w: real)
    ensures w >= 0.0
    ensures w == 0.0 <==>
      || !Truthy(startTime) || chars == 0
      || (EndOf(endTime, now) - startTime.value) as real / MinuteMs < MinMinutes
    ensures w != 0.0 ==>
      w * ((EndOf(endTime, now) - startTime.value) as real / MinuteMs) == chars as real / 5.0
  {
    if !Truthy(startTime) || chars == 0 then 0.0
    else
      var minutes := (EndOf(endTime, now) - startTime.value) as real / MinuteMs;
      if minutes < MinMinutes then 0.0 else (chars as real / 5.0) / minutes
  }

  /** `endTime || now`. */
  function EndOf(endTime: Option<int>, now: int): int {
    if Truthy(endTime) then endTime.value else now
  }

  /** 600 ms or more of typing, in whole milliseconds, is exactly 0.01 minutes or more. */
  lemma MinMinutesIs600Ms(elapsed: int)
    ensures elapsed as real / MinuteMs < MinMinutes <==> elapsed < 600
  {
  }

  /** 100 % with no attempt; otherwise the share of right words, rounded to the nearest percent. */
  function Accuracy(correctWords: nat, totalAttempted: nat): (p: nat)
    requires correctWords <= totalAttempted
    ensures p <= 100
    ensures totalAttempted == 0 ==> p == 100
    ensures totalAttempted > 0 ==>
      totalAttempted * (2 * p - 1) <= 200 * correctWords < totalAttempted * (2 * p + 1)
  {
    if totalAttempted > 0 then
      RoundDivBetween(correctWords * 100, totalAttempted, 0, 100);
      RoundDiv(correctWords * 100, totalAttempted)
    else 100
  }

  /** Every word right gives 100 %; every word wrong gives 0 %. */
  lemma AccuracyExtremes(n: nat)
    requires n > 0
    ensures Accuracy(n, n) == 100 && Accuracy(0, n) == 0
  {
    RoundDivExact(100, n);
    RoundDivExact(0, n);
  }

  class TypingGame {
    /** The word list the sentences are drawn from. */
    const corpus: seq<string>
    var words: seq<string>
    var currentIndex: nat
    var correctWords: nat
    var totalAttempted: nat
    var correctChars: nat
    /** Right or wrong, for each submitted position of the sentence. */
    var wordResults: seq<bool>
    var startTime: Option<int>
    var endTime: Option<int>
    var doneAt: Option<int>
    var done: bool
    /** Both keydown listeners are attached (between `start()` and `stop()`). */
    var listening: bool

    /**
     * One submission per position up to the sentence's end; the counters
     * agree with the marks; done (and the input disabled) exactly at the
     * end of a non-empty sentence.
     */
    ghost predicate Valid()
      reads this
    {
      && corpus != []
      && Tallied()
      && (done <==> words != [] && currentIndex == |words|)
      && (done <==> endTime.Some?)
      && (totalAttempted > 0 ==> startTime.Some?)
      && (listening ==> words != [])
    }

    /** One result per submitted position, and the counters agree with the results. */
    ghost predicate Tallied()
      reads this`words, this`wordResults, this`currentIndex, this`totalAttempted
      reads this`correctWords, this`correctChars
    {
      && currentIndex == totalAttempted == |wordResults| <= |words|
      && correctWords == CountTrue(wordResults)
      && correctChars == CorrectChars(words, wordResults)
    }

    constructor (corpus: seq<string>)
      requires corpus != []
      ensures Valid() && this.corpus == corpus && words == [] && !done && !listening
      ensures doneAt == None
    {
      this.corpus := corpus;
      words := [];
      currentIndex, correctWords, totalAttempted, correctChars := 0, 0, 0, 0;
      wordResults := [];
      startTime, endTime, doneAt := None, None, None;
      done := false;
      listening := false;
    }

    method Start(lenDraw: Unit, shuffleDraws: seq<Unit>)
      requires Valid()
      requires |shuffleDraws| >= |corpus| - 1
      modifies this
      ensures Valid() && listening && !done && currentIndex == 0
      ensures |words| == if |corpus| < SentenceLength(lenDraw) then |corpus| else SentenceLength(lenDraw)
      ensures multiset(words) <= multiset(corpus)
      ensures totalAttempted == 0 && correctWords == 0 && correctChars == 0 && wordResults == []
      ensures startTime == None && endTime == None
    {
      GenerateSentence(lenDraw, shuffleDraws);
      listening := true;
    }

    /** Detaches the listeners and reports the rounded speed and the accuracy. */
    method Stop(now: int) returns (r: SessionResult)
      requires Valid()
      modifies this`listening
      ensures r == TypingResult(
        Round(CalcWpm(startTime, endTime, correctChars, now)) as nat,
        Accuracy(correctWords, totalAttempted))
      ensures !listening
    {
      listening := false;
      var w := Round(CalcWpm(startTime, endTime, correctChars, now));
      r := TypingResult(w as nat, Accuracy(correctWords, totalAttempted));
    }

    /**
     * A fresh sentence: the first 5 to 12 words of a shuffle of the corpus
     * (all of it if shorter), with every counter back at 0. `doneAt` is
     * kept.
     */
    /**
     * A sentence just drawn: the drawn length (or the whole corpus when that
     * is shorter), no corpus word used more often than the corpus holds it,
     * nothing submitted yet and no clock.
     */
    ghost predicate FreshSentence(lenDraw: Unit)
      reads this
    {
      && |words| == (if |corpus| < SentenceLength(lenDraw) then |corpus| else SentenceLength(lenDraw))
      && multiset(words) <= multiset(corpus)
      && !done && currentIndex == 0 && wordResults == []
      && totalAttempted == 0 && correctWords == 0 && correctChars == 0
      && startTime == None && endTime == None
    }

    /**
     * The effect of the document key handler: Space or Enter on a finished
     * sentence, outside the debounce window, draws a new sentence; anything
     * else changes nothing.
     */
    twostate predicate DocKeyed(key: string, now: int, lenDraw: Unit)
      reads this
    {
      var renew := old(listening) && old(done) && (key == " " || key == "Enter")
                   && !(Truthy(old(doneAt)) && now - old(doneAt).value < DebounceMs);
      && (renew ==> FreshSentence(lenDraw) && doneAt == old(doneAt) && listening == old(listening))
      && (!renew ==> unchanged(this))
    }

    method GenerateSentence(lenDraw: Unit, shuffleDraws: seq<Unit>)
      requires Valid()
      requires |shuffleDraws| >= |corpus| - 1
      modifies this`words, this`wordResults, this`currentIndex, this`totalAttempted
      modifies this`correctWords, this`correctChars, this`startTime, this`endTime, this`done
      ensures Valid() && FreshSentence(lenDraw)
    {
      var sentence := Sentence(corpus, lenDraw, shuffleDraws);
      words, wordResults := sentence, [];
      currentIndex, correctWords, totalAttempted, correctChars := 0, 0, 0, 0;
      startTime, endTime, done := None, None, false;
    }

    /**
     * Space or Enter in the enabled text box submits the word; the key then
     * reaches the document, where Space or Enter on a finished sentence asks
     * for the next one. The key that finishes a sentence therefore does not
     * skip the summary.
     */
    method OnKeydown(key: string, fromInput: bool, value: string, now: int,
                     lenDraw: Unit, shuffleDraws: seq<Unit>)
      requires Valid()
      requires |shuffleDraws| >= |corpus| - 1
      modifies this
      ensures Valid() && listening == old(listening)
      ensures !old(listening) ==> unchanged(this)
      ensures old(listening) && fromInput && !old(done) && (key == " " || key == "Enter")
              && Trim(value) != [] && old(currentIndex) + 1 == |old(words)| && now != 0 ==>
        done && words == old(words) && doneAt == Some(now)
      ensures old(listening) && fromInput && !old(done) && (key == " " || key == "Enter")
              && Trim(value) != [] && now != 0 ==>
        Submitted(value, now) && words == old(words)
      ensures old(listening) && !old(done) && !(fromInput && (key == " " || key == "Enter") && Trim(value) != []) ==>
        unchanged(this)
      ensures old(done) ==> DocKeyed(key, now, lenDraw)
    {
      if listening && fromInput && !done {
        OnInputKeydown(key, value, now);
      }
      OnDocKeydown(key, now, lenDraw, shuffleDraws);
    }

    /** The text box's handler: Space or Enter submits. */
    method OnInputKeydown(key: string, value: string, now: int)
      requires Valid() && listening && !done
      modifies this
      ensures Valid()
      ensures !(key == " " || key == "Enter") || Trim(value) == [] ==> unchanged(this)
      ensures (key == " " || key == "Enter") && Trim(value) != [] ==> Submitted(value, now)
      ensures words == old(words) && listening == old(listening)
    {
      if key == " " || key == "Enter" {
        SubmitWord(value, now);
      }
    }

    /** The document's handler: the next sentence, at least 100 ms after the last one ended. */
    method OnDocKeydown(key: string, now: int, lenDraw: Unit, shuffleDraws: seq<Unit>)
      requires Valid()
      requires |shuffleDraws| >= |corpus| - 1
      modifies this
      ensures Valid() && DocKeyed(key, now, lenDraw)
      ensures listening == old(listening)
    {
      if listening && done && (key == " " || key == "Enter") {
        if Truthy(doneAt) && now - doneAt.value < DebounceMs {
          return;
        }
        GenerateSentence(lenDraw, shuffleDraws);
      }
    }

    /**
     * Submits the trimmed text as the current word. Blank text changes
     * nothing. The clock starts at the first submission; a right word
     * credits its length plus one; the last word ends the sentence.
     */
    /**
     * The effect of submitting a non-blank word: one more attempt, the cursor
     * on the next word, the verdict recorded and tallied, the clock started
     * on the first submission and stopped on the last.
     */
    twostate predicate Submitted(value: string, now: int)
      requires old(currentIndex < |words|)
      reads this
    {
      var right := Trim(value) == old(words[currentIndex]);
      && totalAttempted == old(totalAttempted) + 1
      && currentIndex == old(currentIndex) + 1
      && wordResults == old(wordResults) + [right]
      && correctWords == old(correctWords) + (if right then 1 else 0)
      && correctChars == old(correctChars) + (if right then |old(words[currentIndex])| + 1 else 0)
      && startTime == (if Truthy(old(startTime)) then old(startTime) else Some(now))
      && (done <==> currentIndex == |words|)
      && (done ==> doneAt == Some(now) && endTime == Some(now))
      && (!done ==> doneAt == old(doneAt) && endTime == None)
    }

    method SubmitWord(value: string, now: int)
      requires Valid() && !done && words != []
      modifies this
      ensures Valid()
      ensures Trim(value) == [] ==> unchanged(this)
      ensures Trim(value) != [] ==> Submitted(value, now)
      ensures words == old(words) && listening == old(listening)
    {
      var typed := Trim(value);
      if typed == [] {
        return;
      }
      Mark(typed == words[currentIndex], now);
    }

    /** Marks the current word right or wrong and moves on, ending the sentence after its last word. */
    method Mark(right: bool, now: int)
      requires Valid() && !done && words != []
      modifies this
      ensures Valid()
      ensures && totalAttempted == old(totalAttempted) + 1
              && currentIndex == old(currentIndex) + 1
              && wordResults == old(wordResults) + [right]
              && correctWords == old(correctWords) + (if right then 1 else 0)
              && correctChars == old(correctChars) + (if right then |old(words[currentIndex])| + 1 else 0)
              && startTime == (if Truthy(old(startTime)) then old(startTime) else Some(now))
              && (done <==> currentIndex == |words|)
              && (done ==> doneAt == Some(now) && endTime == Some(now))
              && (!done ==> doneAt == old(doneAt) && endTime == None)
      ensures words == old(words) && listening == old(listening)
    {
      if !Truthy(startTime) {
        startTime := Some(now);
      }
      Tally(right);
      if currentIndex >= |words| {
        done, doneAt, endTime := true, Some(now), Some(now);
      }
    }

    /** The next position is marked right or wrong, and the counters follow. */
    method Tally(right: bool)
      requires Tallied() && currentIndex < |words|
      modifies this`wordResults, this`currentIndex, this`totalAttempted, this`correctWords, this`correctChars
      ensures Tallied()
      ensures && totalAttempted == old(totalAttempted) + 1
              && currentIndex == old(currentIndex) + 1
              && wordResults == old(wordResults) + [right]
              && correctWords == old(correctWords) + (if right then 1 else 0)
              && correctChars == old(correctChars) + (if right then |words[old(currentIndex)]| + 1 else 0)
    {
      AppendMark(words, wordResults, right);
      var credit := if right then |words[currentIndex]| + 1 else 0;
      totalAttempted, currentIndex := totalAttempted + 1, currentIndex + 1;
      correctWords, correctChars := correctWords + (if right then 1 else 0), correctChars + credit;
      wordResults := wordResults + [right];
    }
  }
}
